=== FILE: README.md ===
# Open Babel: POV-Ray scene writer and ChemDraw connection-table format

This project is a Dafny model of two Open Babel file formats.

- **The POV-Ray writer** (`src/formats/povrayformat.cpp`). It turns a molecule into POV-Ray
  declarations:
  - one identifier prefix per molecule, taken from the title and made unique with the
    writer's molecule counter;
  - one position and one atom object per atom;
  - each bond twice, once as a ball-and-stick primitive (BAS) and once as two capped-stick
    halves (CST), each placed by scale/rotate/translate steps derived from the bond's
    geometry;
  - the unions of the atoms and of the bonds;
  - the molecule object, with the padded bounding box as a comment;
  - the vector that centres the molecule.

  The header is written only before the first molecule the process writes (counter 0);
  the counter is never reset, so a later output file gets no header. The model is a
  sequence of declarations (`PovrayScene.Decl`), not characters. The counter is explicit
  state (`Prefix.Counter`), threaded through a stream of molecules by
  `PovrayScene.WriteAll`.
- **The ChemDraw format** (`src/formats/chemdrawformat.cpp`). The writer prints a title
  line, a counts line, one line per atom and one `%3d`-column line per bond. The reader
  is count-driven: it fails when a line it needs is missing or has the wrong number of
  fields. Files are sequences of lines. Integer formatting (`%d`, `%3d`) and `sscanf`'s
  `%d` are written out character by character (`Text`). Floating-point formatting and
  `atof` are parameters (`ChemDraw.FloatText`).

Modules:

- `Wrappers`: optional values.
- `Text`: decimal text, padding, C-string view, whitespace tokenizer, `%d` scanning.
- `Molecule`: atoms, bonds, molecule, element table.
- `Prefix`: `MakePrefix` and the counter suffix.
- `BondGeometry`: bond frame and transform steps.
- `BoundingBox`: box, centre, padding.
- `PovrayScene`: declarations for one molecule and for a stream.
- `ChemDraw`: writer, reader, round trip.

For each defect found in the source (see "## Findings"), the model has both the code as
written and a corrected version. The ChemDraw writer and reader come in both versions.
The POV-Ray scene keeps the source's naming; the corrected prefix rule exists alongside
it with its own proof.

## Model

| member | source | states |
|---|---|---|
| Prefix.MakePrefixShape | src/formats/povrayformat.cpp:122-170 | The prefix has no '/', '.', space, tab or NUL. It is "InValid" when nothing follows the last '/'. Otherwise it is the start of the segment after the last '/', up to the first '.', with spaces and tabs turned into underscores. |
| Prefix.MakePrefixEmpty | src/formats/povrayformat.cpp:140-162 | The prefix is empty exactly when the segment after the last '/' is non-empty and starts with '.'. |
| Prefix.MakePrefixInvalid | src/formats/povrayformat.cpp:133-142 | "InValid" comes out exactly when the segment after the last '/' is empty, or is cut down to "InValid" itself. |
| Prefix.MakePrefixIdempotent | src/formats/povrayformat.cpp:134-159 | Applying MakePrefix to a non-empty prefix gives the same prefix back. |
| Prefix.BasePrefixClean | src/formats/povrayformat.cpp:708-714 | The prefix taken from the title, or from "Unknown" when there is no title, is always clean. |
| Prefix.SameTitleDistinctPrefixes | src/formats/povrayformat.cpp:704-737 | One title written under two different counter values gets two different prefixes. |
| Prefix.DifferentTitlesCanCollide | src/formats/povrayformat.cpp:727-737 | "A1" written first and "A" written second both get the prefix "A1" (as written). |
| Prefix.IntendedPrefixInjective | src/formats/povrayformat.cpp:727-737 | With the counter always appended after an underscore, two prefixes are equal exactly when the base prefixes and the counters are equal. |
| Prefix.IntendedPrefixesSeparateTitles | src/formats/povrayformat.cpp:727-737 | With the corrected rule, molecules with different base prefixes never share a prefix, whatever the counters. |
| BoundingBox.BoundingBoxTight | src/formats/povrayformat.cpp:219-260 | The box contains the origin and every atom. Each bound is zero or the coordinate of some atom on that axis. |
| BoundingBox.WidenGrows | src/formats/povrayformat.cpp:240-256 | One widening step keeps every point the box held and takes in the new atom. |
| BoundingBox.Center | src/formats/povrayformat.cpp:675-688 | The centring vector shifts the box to be symmetric about the origin on every axis. |
| BoundingBox.EmptyMoleculeCenter | src/formats/povrayformat.cpp:675-688 | A molecule without atoms is centred by the zero vector. |
| BondGeometry.BondFrame | src/formats/povrayformat.cpp:328-338 | An angle whose divisor is below Epsilon stays 0: phi when the bond is short, theta when its run in the X-Z plane is short. |
| BondGeometry.ShortBondHasShortRun | src/formats/povrayformat.cpp:329-330 | For a monotone square root, a bond shorter than Epsilon also has a run shorter than Epsilon. |
| BondGeometry.PlacementShape | src/formats/povrayformat.cpp:344-393 | A placement is scale, Z-rotation, Y-rotation, translate, in that order. Each step is present exactly when its guard holds, and the translate is always present and always last. |
| BondGeometry.StickStepsShape | src/formats/povrayformat.cpp:340-393 | A ball-and-stick bond is scaled by the bond length when that is at least Epsilon. It is rotated about Z by 90 - phi degrees when that is at least Epsilon in size, and about Y by -theta or +theta (by the sign of dz) when theta is at least Epsilon. It is translated to the begin atom. |
| BondGeometry.ZeroLengthStick | src/formats/povrayformat.cpp:335-393 | A bond shorter than Epsilon is written as exactly `rotate <0,0,90>`, then the translate. |
| BondGeometry.FirstHalfShape | src/formats/povrayformat.cpp:447-493 | The first capped-stick half has the same steps as a stick, with half the length. It is guarded by twice the length, and translated to the begin atom. |
| BondGeometry.SecondHalfShape | src/formats/povrayformat.cpp:506-552 | The second half has the Z-angle shifted by 180 degrees and guarded by phi's 270-degree offset. Its Y-rotation is guarded by the absolute value of theta, and it is translated to the end atom. |
| BondGeometry.HalfScalesAddUp | src/formats/povrayformat.cpp:448-452 | The two halves' scale factors, when written, add up to the bond length. |
| BondGeometry.HalvesShareYRotation | src/formats/povrayformat.cpp:466-549 | Because acos is never negative, both halves agree on whether and how they rotate about Y. |
| BondGeometry.ZeroLengthHalves | src/formats/povrayformat.cpp:448-552 | A bond shorter than Epsilon/2, so that twice its length is below Epsilon, gives halves that keep only their Z-rotation: 90 degrees for the first half, 270 for the second. |
| PovrayScene.NamesDistinct | src/formats/povrayformat.cpp:274-342 | Position, atom and bond names are injective in their index, and names of different roles never coincide. |
| PovrayScene.OutputAtomsAt | src/formats/povrayformat.cpp:262-301 | Atom i gets the position `_pos_<i>` at its coordinates among the first N declarations. Among the last N it gets the object `_atom<i>` of its element, translated to that position. |
| PovrayScene.OutputAtomsKinds | src/formats/povrayformat.cpp:262-301 | The atom block holds only positions and atom objects. |
| PovrayScene.BondsPlacedAtTheirAtoms | src/formats/povrayformat.cpp:318-552 | Each bond is laid between its two atoms' coordinates. The stick and the first half are translated to the begin atom's declared position, the second half to the end atom's. Each half is coloured by its own atom's type. |
| PovrayScene.OutputBondsContents | src/formats/povrayformat.cpp:744-767 | The k-th declaration of each block is bond k's: the BAS block its stick, the CST block its capped halves. |
| PovrayScene.UnionsListDeclaredObjects | src/formats/povrayformat.cpp:564-607 | The unions name exactly the objects declared earlier, in declaration order: the atoms union the atom objects; the bonds union the bond names that both styles declare. |
| PovrayScene.MoleculeBodyKinds | src/formats/povrayformat.cpp:741-772 | The body holds no header and no molecule object. Bond blocks appear only when there are bonds, the first right after the atoms, and both unions are declared. |
| PovrayScene.WriteMoleculeHeader | src/formats/povrayformat.cpp:716-723 | The header comes first exactly when the counter is 0. It carries the title and, exactly when there are no bonds, the spacefill warning. No other declaration is a header. |
| PovrayScene.WriteMoleculeBondBlocks | src/formats/povrayformat.cpp:744-795 | Bond blocks and the bonded molecule object are written exactly when the molecule has bonds; the atoms-only object exactly when it has none. |
| PovrayScene.WriteMoleculeEnding | src/formats/povrayformat.cpp:774-802 | The molecule object is second to last and named by the prefix. Every union it names was declared before it, and its bound is the padded box. The centring vector is last and centres the bounding box. |
| PovrayScene.StreamThreadsCounter | src/formats/povrayformat.cpp:704-805 | Every later molecule is written under exactly the counter its predecessor left. |
| PovrayScene.StreamCounterAfter | src/formats/povrayformat.cpp:805 | After a stream, the counter has moved on by the number of molecules written. |
| PovrayScene.LaterFileHasNoHeader | src/formats/povrayformat.cpp:704-737 | An output file written after others in the same process continues their counter: none of its molecules gets a header, and each prefix is its title's base followed by the counter's digits, the first molecule included. |
| PovrayScene.HeaderOnce | src/formats/povrayformat.cpp:716-723 | In a run from a fresh counter, only the first molecule's declarations start with a header. |
| PovrayScene.SameTitleSeparated | src/formats/povrayformat.cpp:704-737 | In one stream, from whatever counter it starts, two molecules with the same title are never written under the same prefix. |
| Text.ScanIntText | src/formats/chemdrawformat.cpp:158-181 | `%d` scanning reads back what `%d` printed, after any whitespace and before a non-digit. |
| Text.TokenizeFour | src/formats/chemdrawformat.cpp:163-180 | Four tokens, separated by non-empty whitespace runs, split back into exactly those four tokens. |
| ChemDraw.WriteMoleculeLayout | src/formats/chemdrawformat.cpp:101-126 | Line 0 is the title, line 1 the counts, then the atom lines and the bond lines in molecule order. |
| ChemDraw.CountsRoundTrip | src/formats/chemdrawformat.cpp:101-158 | A counts line scans back to the atom and bond counts, whatever the count variables held before. |
| ChemDraw.AtomLineFields | src/formats/chemdrawformat.cpp:110-172 | An atom line whose numbers and symbol print as single fields splits into x, y, the zero z and the symbol. |
| ChemDraw.BondLineFields | src/formats/chemdrawformat.cpp:122-180 | When the end index and the order fit their columns, a bond line splits into begin, end, order and order. |
| ChemDraw.BondLineScan | src/formats/chemdrawformat.cpp:122-182 | Such a line is accepted and scans to the bond's begin, end and order, whatever the registers held. |
| ChemDraw.FitsColumnRange | src/formats/chemdrawformat.cpp:122 | A `%3d` column stays apart from the one before it exactly for -9..99. |
| ChemDraw.BondColumnsMerge | src/formats/chemdrawformat.cpp:122-180 | An end index of 100 to 999 fills its column and merges into the begin index. The line has three fields, and the reader rejects it. |
| ChemDraw.BondLineIntendedScan | src/formats/chemdrawformat.cpp:122-182 | The corrected `%3d %3d %3d %3d` line is accepted and scans back to the bond for every index and order. |
| ChemDraw.ReadAtomsSome | src/formats/chemdrawformat.cpp:160-164 | Reading atoms succeeds exactly when every one of the N lines exists and has four fields. |
| ChemDraw.ReadAtomsContents | src/formats/chemdrawformat.cpp:160-173 | Atom k comes from line from + k: `atof` of its first three fields and the element of its fourth. |
| ChemDraw.ReadBondsSome | src/formats/chemdrawformat.cpp:175-181 | Reading bonds succeeds exactly when every one of the M lines exists, has four fields and starts with an integer. |
| ChemDraw.ReadBondsContents | src/formats/chemdrawformat.cpp:175-183 | Bond k holds the registers as line k's partial scan leaves them. A register the line does not reach keeps the previous line's value. |
| ChemDraw.ReadMoleculeSome | src/formats/chemdrawformat.cpp:131-187 | The reader succeeds exactly when all N atom lines and all M bond lines are there and well formed. N and M are the counts as scanned from line 1. |
| ChemDraw.ReadMoleculeShape | src/formats/chemdrawformat.cpp:151-183 | A molecule read has N atoms and M bonds, has consumed 2 + N + M lines (all present once any atom or bond is read), and carries the title as the source chooses it. |
| ChemDraw.ReadMoleculeAtoms | src/formats/chemdrawformat.cpp:160-173 | The atoms read are those of lines 2 .. 2 + N - 1, one per line. |
| ChemDraw.ReadMoleculeBonds | src/formats/chemdrawformat.cpp:175-183 | The bonds read are those the bond loop reads from line 2 + N, starting from the registers' initial contents. |
| ChemDraw.TrailingLinesIgnored | src/formats/chemdrawformat.cpp:151-183 | Appending lines after the 2 + N + M the reader needs does not change what it reads. |
| ChemDraw.NegativeCountRejected | src/formats/chemdrawformat.cpp:143-162 | A negative atom count wraps to more than two billion. A file with fewer lines than that is rejected by both readers. |
| ChemDraw.MinusOneAtomsRejected | src/formats/chemdrawformat.cpp:158-162 | The counts line " -1 0" makes the reader fail. |
| ChemDraw.IntendedDiffersOnlyInTitle | src/formats/chemdrawformat.cpp:151-155 | The corrected reader succeeds exactly when the as-written one does. It reads the same atoms, bonds and line count and differs only in the title. |
| ChemDraw.RoundTripAsWritten | src/formats/chemdrawformat.cpp:88-187 | Writing a writable molecule (bonds fit their columns) and reading it back as written gives the rereads of its atoms, its bonds and the lines consumed. A non-empty title is replaced by the conversion's title. |
| ChemDraw.TitleLostExample | src/formats/chemdrawformat.cpp:151-155 | "benzene" written and read under "input.ct" comes back as "input.ct" with the source's reader, and as "benzene" with the corrected one. |
| ChemDraw.LargeIndexNotReadBack | src/formats/chemdrawformat.cpp:122-180 | A molecule with a bond whose end index has three digits is not read back by the source's reader. |
| ChemDraw.RoundTrip | src/formats/chemdrawformat.cpp:88-187 | With both corrections, every representable molecule reads back: its title (or the conversion's, for an empty one), the rereads of its atoms, all of its bonds, and exactly the lines written. |

## Left out

- Output text: POV-Ray declarations are modelled as a datatype, not as the characters the
  writer prints. Comments, blank lines, braces and `#end` lines are not modelled, and
  neither are numbers printed through `ostream` (atom coordinates, bond steps, bounds,
  centre).
- PovrayScene.Decl, constructor Header: the header text is not modelled. That covers the timestamp from
  `time`/`strftime` (a clock), the fixed comment and `#include`/`#version`/`#render`
  lines, and the stray quote in `#if (BAS | CST)"` before the spacefill warning
  (povrayformat.cpp:202). Only its presence, its title and whether the warning is
  written are modelled.
- PovrayScene.Decl, constructor AtomsUnion: the `#ifdef (TRANS)` choice between `merge` and `union` for the
  atoms (povrayformat.cpp:568-572) is one declaration. It is a renderer-side switch; both
  alternatives list the same members.
- PovrayScene.Decl, constructor WithBonds: the `#if (SPF)` object and the `#if (TRANS)` difference versus
  plain union (povrayformat.cpp:620-648) are one declaration naming the atoms union, the
  bonds union and the bound. All alternatives refer to the same unions.
- Prefix.MakePrefix: the `strdup` failure path that returns "NoMemory"
  (povrayformat.cpp:130-131) is left out, because allocation is not modelled.
- Prefix.Counter: the `static long` counter is an unbounded natural number, so its
  overflow after LONG_MAX molecules is not modelled. Its process-wide lifetime is a value
  passed in and returned: a second output file written by the same process starts from a
  non-zero counter, gets no header and has its first prefix suffixed
  (`PovrayScene.LaterFileHasNoHeader`), although the comment at povrayformat.cpp:716 speaks
  of "this file". The model follows the code.
- PovrayScene.WriteMolecule: the scene uses the prefix rule as written
  (`Prefix.MoleculePrefix`). The corrected rule is modelled and proved separately, not
  substituted.
- BondGeometry.Numerics: `sqrt` and `acos` are parameters. Only a non-negative, monotone
  square root (`SqrtBehaves`) and a non-negative `acos` are assumed where a lemma needs
  them.
- BondGeometry.Pi: doubles are modelled as exact reals, and PI is the decimal literal of
  the source, not its nearest double. Rounding in the angle and length computations is
  not modelled.
- PovrayScene.Env: the atom typer's `GetType` (the capped-stick colours) and the element
  table are parameters.
- ChemDraw.FloatText: `%9.4f` and `atof` are parameters. The round trip states atoms
  come back as `atof(%9.4f(x))`, not as x.
- ChemDraw.ReadAtoms: `getline(buffer, BUFF_SIZE)` fails on a line too long for the
  buffer and leaves the stream failed, so every later read fails with an empty buffer.
  The title and counts reads (chemdrawformat.cpp:151, :157) are unchecked. After a
  failed read there, `sscanf` assigns nothing and the counts keep their uninitialised
  values. The reader returns false only at the checked atom and bond reads (:162, :178),
  which it reaches only for a non-zero count. For example, the counts line `"  0  0"`
  followed by an over-long line gives true and an empty molecule. The model has no
  buffer size and accepts lines of any length, because `BUFF_SIZE` is defined outside
  these files.
- ChemDraw.ThreadBonds: same as ReadAtoms for over-long bond lines.
- ChemDraw.WriteMolecule: `sprintf` into the same fixed-size buffer (an overflow for an
  over-long element symbol) is not modelled.
- ChemDraw.FileLines: the title is written as one line. A title holding a line break
  would be written as several lines and shift every line after it. `Representable`
  therefore requires a title without line breaks, and the writer's line layout is stated
  for the line sequence, not for the characters.
- Text.Tokenize: `tokenize` is not part of this model. It is taken to split on runs of
  the six C `isspace` characters (space, tab, line feed, vertical tab, form feed,
  carriage return) and to drop empty pieces.
- Text.ScanInt: `%d` values are unbounded integers. Overflow of a `%d` conversion beyond
  the `int` range is not modelled. Counts and indices the writer prints are within
  IntMax where a round trip is stated.
- ChemDraw.Unsigned: a negative count stored into `unsigned int` wraps modulo 2^32. The
  reader's `int i` loop counter compared against it (chemdrawformat.cpp:160, :176) is
  taken to count up to the wrapped value. The count-driven loop stops at the first
  missing line anyway.
- ChemDraw.ReadMolecule: `AddBond` and `NewAtom` are not modelled. The bonds are
  returned as the registers give them and are not checked against the atoms. `BeginModify`
  and `EndModify` are not modelled.
- ChemDraw.Buffer: when the stream has run out before the title or counts line, the
  buffer is taken to be empty.
- Plugin registration, `OBConversion` options, the `dimension` value and the null-pointer
  checks of `dynamic_cast` are not modelled, because they are calls into code outside
  these files.

## Findings

| source | as written | input that shows it | evidently intended | confidence | as-written member | corrected member |
|---|---|---|---|---|---|---|
| src/formats/chemdrawformat.cpp:151-155 | the file's title is kept only when it is empty; any non-empty title is replaced by the conversion's title | a file whose first line is "benzene", read under the conversion title "input.ct", gives a molecule titled "input.ct" | keep the file's title, and fall back to the conversion's title when the line is empty | high (not executed) | ChemDraw.ReadMolecule, ChemDraw.TitleLostExample | ChemDraw.ReadMoleculeIntended, ChemDraw.RoundTrip |
| src/formats/chemdrawformat.cpp:122-125 | `%3d%3d%3d%3d` puts no blank between the columns, so a three-digit end index runs into the begin index | bond 1-100 of order 1 is written "  1100  1  1", which has three fields; the reader then rejects the file | a separator between the columns, so that every index reads back; equally plausible is a reader that takes the bond columns by position, as the fixed-width layout suggests (the model corrects the writer) | high (not executed) | ChemDraw.BondLine, ChemDraw.BondColumnsMerge, ChemDraw.LargeIndexNotReadBack | ChemDraw.BondLineIntended, ChemDraw.BondLineIntendedScan, ChemDraw.RoundTrip |
| src/formats/povrayformat.cpp:727-737 | the counter's digits are appended directly to the base prefix | "A1" written first and "A" written second both get the prefix "A1", so the second molecule redeclares the first's objects | a separator before the counter, so that distinct (title, counter) pairs give distinct prefixes | medium (not executed) | Prefix.MoleculePrefix, Prefix.DifferentTitlesCanCollide | Prefix.MoleculePrefixIntended, Prefix.IntendedPrefixInjective |

=== FILE: boundingbox.dfy ===
/** The axis-aligned bounding box of a molecule, seeded at the origin, and the
    centring vector derived from it. */
module BoundingBox {
  import opened Molecule

  /** Largest atom radius, used to pad the box in the (commented-out) bound. */
  const MaxRadius: real := 3.0

  datatype Axis = X | Y | Z

  function Coord(p: Vec3, a: Axis): real {
    match a
    case X => p.x
    case Y => p.y
    case Z => p.z
  }

  datatype Box = Box(low: Vec3, high: Vec3)

  const Origin: Vec3 := Vec3(0.0, 0.0, 0.0)

  predicate Within(b: Box, p: Vec3) {
    forall a: Axis :: Coord(b.low, a) <= Coord(p, a) <= Coord(b.high, a)
  }

  /** Each bound is zero or the coordinate of one of the atoms. */
  predicate Attained(b: Box, atoms: seq<Atom>) {
    forall a: Axis ::
      && (Coord(b.low, a) == 0.0 || exists i :: 0 <= i < |atoms| && Coord(atoms[i].pos, a) == Coord(b.low, a))
      && (Coord(b.high, a) == 0.0 || exists i :: 0 <= i < |atoms| && Coord(atoms[i].pos, a) == Coord(b.high, a))
  }

  /** The box widened, axis by axis, to take in `p`. */
  function Widen(b: Box, p: Vec3): Box {
    Box(Vec3(if p.x < b.low.x then p.x else b.low.x,
             if p.y < b.low.y then p.y else b.low.y,
             if p.z < b.low.z then p.z else b.low.z),
        Vec3(if p.x > b.high.x then p.x else b.high.x,
             if p.y > b.high.y then p.y else b.high.y,
             if p.z > b.high.z then p.z else b.high.z))
  }

  /** The box seeded at the origin and widened by each atom in turn. */
  function CalcBoundingBox(atoms: seq<Atom>): Box
    decreases |atoms|
  {
    if |atoms| == 0 then Box(Origin, Origin)
    else Widen(CalcBoundingBox(atoms[..|atoms| - 1]), atoms[|atoms| - 1].pos)
  }

  /** Widening keeps what the box held and takes in the new point. */
  lemma WidenGrows(b: Box, p: Vec3)
    ensures forall a: Axis ::
      Coord(Widen(b, p).low, a) <= Coord(b.low, a) && Coord(b.high, a) <= Coord(Widen(b, p).high, a)
    ensures Within(Widen(b, p), p)
  {
  }

  /** The box holds the origin and every atom, and each of its bounds is zero
      or some atom's coordinate: it is the smallest such box. */
  lemma {:induction false} BoundingBoxTight(atoms: seq<Atom>)
    ensures var b := CalcBoundingBox(atoms);
      && Within(b, Origin)
      && (forall i :: 0 <= i < |atoms| ==> Within(b, atoms[i].pos))
      && Attained(b, atoms)
    decreases |atoms|
  {
    if |atoms| > 0 {
      var init := atoms[..|atoms| - 1];
      var p := atoms[|atoms| - 1].pos;
      BoundingBoxTight(init);
      var prev := CalcBoundingBox(init);
      var b := Widen(prev, p);
      WidenGrows(prev, p);
      assert forall i :: 0 <= i < |atoms| - 1 ==> init[i] == atoms[i];
      forall a: Axis
        ensures Coord(b.low, a) == 0.0 || exists i :: 0 <= i < |atoms| && Coord(atoms[i].pos, a) == Coord(b.low, a)
        ensures Coord(b.high, a) == 0.0 || exists i :: 0 <= i < |atoms| && Coord(atoms[i].pos, a) == Coord(b.high, a)
      {
        if Coord(b.low, a) != Coord(prev.low, a) {
          assert Coord(atoms[|atoms| - 1].pos, a) == Coord(b.low, a);
        }
        if Coord(b.high, a) != Coord(prev.high, a) {
          assert Coord(atoms[|atoms| - 1].pos, a) == Coord(b.high, a);
        }
      }
    }
  }

  /** The centring vector: the negated midpoint of the box. */
  function Center(b: Box): (c: Vec3)
    ensures forall a: Axis :: Coord(b.low, a) + Coord(c, a) == -(Coord(b.high, a) + Coord(c, a))
  {
    Vec3(-1.0 * (b.low.x + b.high.x) / 2.0,
         -1.0 * (b.low.y + b.high.y) / 2.0,
         -1.0 * (b.low.z + b.high.z) / 2.0)
  }

  /** A molecule without atoms is centred by the zero vector. */
  lemma EmptyMoleculeCenter()
    ensures Center(CalcBoundingBox([])) == Origin
  {
  }

  /** The box grown by MaxRadius on every side. */
  function Padded(b: Box): (r: Box)
    ensures forall a: Axis ::
      Coord(r.low, a) + MaxRadius == Coord(b.low, a) && Coord(r.high, a) - MaxRadius == Coord(b.high, a)
  {
    Box(Vec3(b.low.x - MaxRadius, b.low.y - MaxRadius, b.low.z - MaxRadius),
        Vec3(b.high.x + MaxRadius, b.high.y + MaxRadius, b.high.z + MaxRadius))
  }
}

=== FILE: chemdraw.dfy ===
/** The ChemDraw connection-table format: a title line, a line with the atom
    and bond counts, one line per atom (x, y, a zero z and the element
    symbol) and one fixed-width line per bond. The text is a sequence of
    lines; the reader is count-driven and fails when a required line is
    missing or malformed. */
module ChemDraw {
  import opened Wrappers
  import opened Text
  import opened Molecule

  /** The floating-point text conversions, which live outside the format:
      the digits `%9.4f` prints for a value (without its field padding) and
      `atof`. */
  datatype FloatText = FloatText(format: real -> string, parse: string -> real)

  /** A field the tokenizer keeps whole: a non-empty, whitespace- and
      NUL-free piece of text. */
  predicate Field(s: string) {
    IsToken(s) && '\0' !in s
  }

  // ---------------------------------------------------------------------------
  // Writer
  // ---------------------------------------------------------------------------

  /** A `%3d` column. */
  function Column(v: int): string {
    PadLeft(IntText(v), 3)
  }

  /** The z column: every atom is written with a zero z. */
  const ZeroZ: string := "0.0000"

  /** `" %d %d"` of the atom and bond counts. */
  function CountsLine(mol: Mol): string {
    " " + IntText(|mol.atoms|) + " " + IntText(|mol.bonds|)
  }

  /** `" %9.4f %9.4f    0.0000 %-1s"` of x, y and the element symbol. */
  function AtomLine(a: Atom, ft: FloatText, table: ElementTable): string {
    " " + PadLeft(ft.format(a.pos.x), 9) + " " + PadLeft(ft.format(a.pos.y), 9)
    + "    " + ZeroZ + " " + PadRight(table.symbol(a.atomicNum), 1)
  }

  /** `"%3d%3d%3d%3d"` of begin, end, and the bond order twice. */
  function BondLine(b: Bond): string {
    Column(b.begin) + Column(b.end) + Column(b.order) + Column(b.order)
  }

  /** A `%3d` column after a blank. */
  function SpacedColumn(v: int): string {
    " " + Column(v)
  }

  /** The bond line with its columns kept apart, `"%3d %3d %3d %3d"`: every
      index and order reads back (BondLineIntendedScan), where the line as
      written merges a three-digit end index into the begin index
      (BondColumnsMerge). */
  function BondLineIntended(b: Bond): string {
    Column(b.begin) + SpacedColumn(b.end) + SpacedColumn(b.order) + SpacedColumn(b.order)
  }

  /** The lines of a molecule: title, counts, one line per atom, then one
      per bond as `bondLine` prints it, each in molecule order. The title is
      streamed as a C string, so it must be present. */
  function FileLines(mol: Mol, ft: FloatText, table: ElementTable, bondLine: Bond -> string): (lines: seq<string>)
    requires mol.title.Some?
    ensures |lines| == 2 + |mol.atoms| + |mol.bonds|
  {
    [CString(mol.title.value), CountsLine(mol)] + AtomLines(mol.atoms, ft, table) + BondLines(mol.bonds, bondLine)
  }

  /** The writer as it stands. */
  function WriteMolecule(mol: Mol, ft: FloatText, table: ElementTable): seq<string>
    requires mol.title.Some?
  {
    FileLines(mol, ft, table, BondLine)
  }

  /** The writer with its bond columns kept apart. */
  function WriteMoleculeIntended(mol: Mol, ft: FloatText, table: ElementTable): seq<string>
    requires mol.title.Some?
  {
    FileLines(mol, ft, table, BondLineIntended)
  }

  /** One atom line per atom, in order. */
  function AtomLines(atoms: seq<Atom>, ft: FloatText, table: ElementTable): (lines: seq<string>)
    ensures |lines| == |atoms|
    ensures forall i :: 0 <= i < |atoms| ==> lines[i] == AtomLine(atoms[i], ft, table)
  {
    seq(|atoms|, i requires 0 <= i < |atoms| => AtomLine(atoms[i], ft, table))
  }

  /** One bond line per bond, in order. */
  function BondLines(bonds: seq<Bond>, bondLine: Bond -> string): (lines: seq<string>)
    ensures |lines| == |bonds|
    ensures forall k :: 0 <= k < |bonds| ==> lines[k] == bondLine(bonds[k])
  {
    seq(|bonds|, k requires 0 <= k < |bonds| => bondLine(bonds[k]))
  }

  // ---------------------------------------------------------------------------
  // Reader
  // ---------------------------------------------------------------------------

  /** The three integers the bond loop reads into; a partial `sscanf` leaves
      the unassigned ones holding what the previous line put there. */
  datatype Registers = Registers(begin: int, end: int, order: int)

  /** What the reader consults but does not own: `atof`, the element table,
      and what the bond registers and the two count variables hold before
      `sscanf` first assigns them. */
  datatype ReadEnv = ReadEnv(ft: FloatText, table: ElementTable, uninit: Registers, uninitCounts: (nat, nat))

  /** A molecule read, and the number of lines consumed for it. */
  datatype ReadResult = ReadResult(mol: Mol, consumed: nat)

  /** The values an `unsigned int` holds. */
  const UintRange: int := 0x1_0000_0000

  /** A `%d` conversion stored into an `unsigned int`: the value modulo
      2^32, so that a negative count becomes a very large one. */
  function Unsigned(v: int): (u: nat)
    ensures u < UintRange
    ensures 0 <= v < UintRange ==> u == v
    ensures -UintRange <= v < 0 ==> u == v + UintRange
  {
    v % UintRange
  }

  /** What `getline` leaves in the buffer for line `i`: the line, or the
      empty string once the stream has run out. */
  function Buffer(lines: seq<string>, i: nat): string {
    if i < |lines| then lines[i] else ""
  }

  /** `sscanf(line, " %d %d", &natoms, &nbonds)`: each count it reaches is
      assigned (as an unsigned value); a count it does not reach keeps what
      its variable held, `prior`. */
  function Counts(line: string, prior: (nat, nat)): (nat, nat) {
    match ScanInt(CString(line))
    case None => prior
    case Some((n, rest)) =>
      match ScanInt(rest)
      case None => (Unsigned(n), prior.1)
      case Some((m, _)) => (Unsigned(n), Unsigned(m))
  }

  /** The atom and bond counts the reader takes from the second line. */
  function HeaderCounts(lines: seq<string>, env: ReadEnv): (nat, nat) {
    Counts(Buffer(lines, 1), env.uninitCounts)
  }

  /** The whitespace-separated fields of a line, as `tokenize` splits the
      C-string view of the buffer. */
  function Fields(line: string): seq<string> {
    Tokenize(CString(line))
  }

  /** An atom from its four fields: `atof` of the first three, the element
      of the fourth. */
  function AtomOfFields(vs: seq<string>, ft: FloatText, table: ElementTable): Atom
    requires |vs| == 4
  {
    Atom(Vec3(ft.parse(vs[0]), ft.parse(vs[1]), ft.parse(vs[2])), table.atomicNum(vs[3]))
  }

  /** Reads `count` atom lines from `lines[from..]`; fails on a missing line
      or on one that does not split into exactly four fields. */
  function ReadAtoms(lines: seq<string>, from: nat, count: nat, ft: FloatText, table: ElementTable): Option<seq<Atom>>
    decreases count
  {
    if count == 0 then Some([])
    else if from >= |lines| then None
    else
      var vs := Fields(lines[from]);
      if |vs| != 4 then None
      else
        match ReadAtoms(lines, from + 1, count - 1, ft, table)
        case None => None
        case Some(rest) => Some([AtomOfFields(vs, ft, table)] + rest)
  }

  /** Whether the bond loop takes a line: it has four fields and `sscanf`
      assigns at least its first integer. */
  predicate BondLineAccepted(line: string) {
    |Fields(line)| == 4 && ScanInt(CString(line)).Some?
  }

  /** The registers after `sscanf(line, "%d%d%d%*d", ...)`: the integers it
      reaches are assigned, the registers it does not reach keep what they
      held. */
  function ScanBond(line: string, regs: Registers): Registers {
    match ScanInt(CString(line))
    case None => regs
    case Some((a, rest)) => ScanAfterBegin(a, rest, regs)
  }

  /** The rest of a bond scan once the begin index `a` has been read. */
  function ScanAfterBegin(a: int, rest: string, regs: Registers): Registers {
    match ScanInt(rest)
    case None => Registers(a, regs.end, regs.order)
    case Some((b, rest')) =>
      match ScanInt(rest')
      case None => Registers(a, b, regs.order)
      case Some((c, _)) => Registers(a, b, c)
  }

  function BondOf(r: Registers): Bond {
    Bond(r.begin, r.end, r.order)
  }

  /** The bond loop for a given line test and register update: reads `count`
      lines from `lines[from..]`, failing on a missing or rejected line, and
      adds one bond per line from the registers as that line leaves them. */
  function ThreadBonds(accepts: string -> bool, scan: (string, Registers) -> Registers,
                       lines: seq<string>, from: nat, count: nat, regs: Registers): Option<seq<Bond>>
    decreases count
  {
    if count == 0 then Some([])
    else if from >= |lines| || !accepts(lines[from]) then None
    else
      var r := scan(lines[from], regs);
      match ThreadBonds(accepts, scan, lines, from + 1, count - 1, r)
      case None => None
      case Some(rest) => Some([BondOf(r)] + rest)
  }

  /** Reads `count` bond lines from `lines[from..]`, threading the registers
      from `regs`. */
  function ReadBonds(lines: seq<string>, from: nat, count: nat, regs: Registers): Option<seq<Bond>> {
    ThreadBonds(BondLineAccepted, ScanBond, lines, from, count, regs)
  }

  /** The connection table after the counts line: `n` atom lines from line 2,
      then `m` bond lines, under the title already chosen. */
  function ReadTable(lines: seq<string>, title: string, n: nat, m: nat, env: ReadEnv): Option<ReadResult> {
    match ReadAtoms(lines, 2, n, env.ft, env.table)
    case None => None
    case Some(atoms) =>
      match ReadBonds(lines, 2 + n, m, env.uninit)
      case None => None
      case Some(bonds) => Some(ReadResult(Mol(Some(title), atoms, bonds), 2 + n + m))
  }

  /** The title as the reader chooses it: the file's (empty) title line when
      it is empty, the conversion's title otherwise. */
  function TitleAsWritten(line: string, convTitle: string): string {
    var buffer := CString(line);
    if |buffer| == 0 then buffer else convTitle
  }

  /** The title as evidently intended: the file's title line, or the
      conversion's title when the line is empty. */
  function TitleIntended(line: string, convTitle: string): string {
    var buffer := CString(line);
    if |buffer| == 0 then convTitle else buffer
  }

  /** The reader as it stands: the title by its condition as written, the
      counts from the second line, then the atom and bond lines. */
  function ReadMolecule(lines: seq<string>, convTitle: string, env: ReadEnv): Option<ReadResult> {
    var (n, m) := HeaderCounts(lines, env);
    ReadTable(lines, TitleAsWritten(Buffer(lines, 0), convTitle), n, m, env)
  }

  /** The reader with the title condition corrected. */
  function ReadMoleculeIntended(lines: seq<string>, convTitle: string, env: ReadEnv): Option<ReadResult> {
    var (n, m) := HeaderCounts(lines, env);
    ReadTable(lines, TitleIntended(Buffer(lines, 0), convTitle), n, m, env)
  }

  // ---------------------------------------------------------------------------
  // Reader: success, contents, consumption
  // ---------------------------------------------------------------------------

  /** Every one of the `count` atom lines exists and has four fields. */
  predicate AtomLinesOk(lines: seq<string>, from: nat, count: nat) {
    && (count == 0 || from + count <= |lines|)
    && forall k :: from <= k < from + count ==> |Fields(lines[k])| == 4
  }

  /** Every one of the `count` lines exists and passes `accepts`. */
  predicate LinesAccepted(accepts: string -> bool, lines: seq<string>, from: nat, count: nat) {
    && (count == 0 || from + count <= |lines|)
    && forall k :: from <= k < from + count ==> accepts(lines[k])
  }

  /** Every one of the `count` bond lines exists, has four fields, and starts
      with an integer. */
  predicate BondLinesOk(lines: seq<string>, from: nat, count: nat) {
    && (count == 0 || from + count <= |lines|)
    && forall k :: from <= k < from + count ==> BondLineAccepted(lines[k])
  }

  /** Reading atoms succeeds exactly when every atom line is there and has
      four fields. */
  lemma {:induction false} ReadAtomsSome(lines: seq<string>, from: nat, count: nat, ft: FloatText, table: ElementTable)
    ensures ReadAtoms(lines, from, count, ft, table).Some? <==> AtomLinesOk(lines, from, count)
    decreases count
  {
    if count > 0 && from < |lines| && |Fields(lines[from])| == 4 {
      ReadAtomsSome(lines, from + 1, count - 1, ft, table);
    }
  }

  /** Atoms read are one per line. */
  lemma {:induction false} ReadAtomsLength(lines: seq<string>, from: nat, count: nat, ft: FloatText, table: ElementTable)
    requires ReadAtoms(lines, from, count, ft, table).Some?
    ensures |ReadAtoms(lines, from, count, ft, table).value| == count
    decreases count
  {
    if count > 0 {
      ReadAtomsLength(lines, from + 1, count - 1, ft, table);
    }
  }

  /** Atom `k` read is built from the fields of line `from + k`. */
  lemma {:induction false} ReadAtomsAt(lines: seq<string>, from: nat, count: nat, ft: FloatText, table: ElementTable, k: nat)
    requires ReadAtoms(lines, from, count, ft, table).Some?
    requires k < count
    ensures var atoms := ReadAtoms(lines, from, count, ft, table).value;
      && k < |atoms|
      && from + k < |lines|
      && |Fields(lines[from + k])| == 4
      && atoms[k] == AtomOfFields(Fields(lines[from + k]), ft, table)
    decreases k
  {
    ReadAtomsLength(lines, from, count, ft, table);
    var atoms := ReadAtoms(lines, from, count, ft, table).value;
    var rest := ReadAtoms(lines, from + 1, count - 1, ft, table).value;
    assert atoms == [AtomOfFields(Fields(lines[from]), ft, table)] + rest;
    if k > 0 {
      ReadAtomsAt(lines, from + 1, count - 1, ft, table, k - 1);
      assert atoms[k] == rest[k - 1];
      assert from + 1 + (k - 1) == from + k;
    }
  }

  /** `lines[from..]` holds one four-field line per atom, each atom taking
      x, y, z from the first three fields and its element from the fourth. */
  predicate AtomsFromLines(lines: seq<string>, from: nat, atoms: seq<Atom>, ft: FloatText, table: ElementTable) {
    && (|atoms| == 0 || from + |atoms| <= |lines|)
    && forall i :: 0 <= i < |atoms| ==>
         |Fields(lines[from + i])| == 4 && atoms[i] == AtomOfFields(Fields(lines[from + i]), ft, table)
  }

  /** Atoms read are one per atom line, in line order, each built from its
      line's four fields. */
  lemma ReadAtomsContents(lines: seq<string>, from: nat, count: nat, ft: FloatText, table: ElementTable, atoms: seq<Atom>)
    requires ReadAtoms(lines, from, count, ft, table) == Some(atoms)
    ensures |atoms| == count
    ensures AtomsFromLines(lines, from, atoms, ft, table)
  {
    ReadAtomsLength(lines, from, count, ft, table);
    ReadAtomsSome(lines, from, count, ft, table);
    forall k | 0 <= k < count
      ensures |Fields(lines[from + k])| == 4 && atoms[k] == AtomOfFields(Fields(lines[from + k]), ft, table)
    {
      ReadAtomsAt(lines, from, count, ft, table, k);
    }
  }

  /** The registers each bond line starts from: the initial ones for the
      first line, the previous bond's for every later one. */
  function RegistersBefore(bonds: seq<Bond>, regs: Registers, k: nat): Registers
    requires k <= |bonds|
  {
    if k == 0 then regs else Registers(bonds[k - 1].begin, bonds[k - 1].end, bonds[k - 1].order)
  }

  /** Each bond is what `%d%d%d` scans from its line, `lines[from..]` in
      order, over the registers the previous line left. */
  predicate BondsScanned(lines: seq<string>, from: nat, bonds: seq<Bond>, regs: Registers)
    requires from + |bonds| <= |lines|
  {
    forall k :: 0 <= k < |bonds| ==>
      bonds[k] == BondOf(ScanBond(lines[from + k], RegistersBefore(bonds, regs, k)))
  }

  /** The bond loop succeeds exactly when every line it needs is there and
      accepted. */
  lemma {:induction false} ThreadBondsSome(accepts: string -> bool, scan: (string, Registers) -> Registers,
                                           lines: seq<string>, from: nat, count: nat, regs: Registers)
    ensures ThreadBonds(accepts, scan, lines, from, count, regs).Some? <==> LinesAccepted(accepts, lines, from, count)
    decreases count
  {
    if count > 0 && from < |lines| && accepts(lines[from]) {
      ThreadBondsSome(accepts, scan, lines, from + 1, count - 1, scan(lines[from], regs));
    }
  }

  /** A successful bond loop yields one bond per line. */
  lemma {:induction false} ThreadBondsLength(accepts: string -> bool, scan: (string, Registers) -> Registers,
                                             lines: seq<string>, from: nat, count: nat, regs: Registers)
    requires ThreadBonds(accepts, scan, lines, from, count, regs).Some?
    ensures |ThreadBonds(accepts, scan, lines, from, count, regs).value| == count
    decreases count
  {
    if count > 0 {
      ThreadBondsLength(accepts, scan, lines, from + 1, count - 1, scan(lines[from], regs));
    }
  }

  /** Bond `k` of a successful bond loop is the registers as line
      `from + k`'s scan leaves them, starting from those the previous line
      left. */
  lemma {:induction false} ThreadBondsAt(accepts: string -> bool, scan: (string, Registers) -> Registers,
                                         lines: seq<string>, from: nat, count: nat, regs: Registers, k: nat)
    requires ThreadBonds(accepts, scan, lines, from, count, regs).Some?
    requires k < count
    ensures var bonds := ThreadBonds(accepts, scan, lines, from, count, regs).value;
      && k < |bonds|
      && from + k < |lines|
      && bonds[k] == BondOf(scan(lines[from + k], RegistersBefore(bonds, regs, k)))
    decreases k
  {
    ThreadBondsLength(accepts, scan, lines, from, count, regs);
    var r := scan(lines[from], regs);
    var bonds := ThreadBonds(accepts, scan, lines, from, count, regs).value;
    var rest := ThreadBonds(accepts, scan, lines, from + 1, count - 1, r).value;
    assert bonds == [BondOf(r)] + rest;
    if k > 0 {
      ThreadBondsAt(accepts, scan, lines, from + 1, count - 1, r, k - 1);
      assert bonds[k] == rest[k - 1];
      assert from + 1 + (k - 1) == from + k;
      assert RegistersBefore(bonds, regs, k) == RegistersBefore(rest, r, k - 1) by {
        if k > 1 {
          assert bonds[k - 1] == rest[k - 2];
        } else {
          assert Registers(bonds[0].begin, bonds[0].end, bonds[0].order) == r;
        }
      }
    }
  }

  /** Reading bonds succeeds exactly when every bond line is there, has four
      fields and starts with an integer. */
  lemma ReadBondsSome(lines: seq<string>, from: nat, count: nat, regs: Registers)
    ensures ReadBonds(lines, from, count, regs).Some? <==> BondLinesOk(lines, from, count)
  {
    ThreadBondsSome(BondLineAccepted, ScanBond, lines, from, count, regs);
  }

  /** Bonds read are one per bond line, in line order, each what `%d%d%d`
      scans from its line over the registers the previous line left. */
  lemma ReadBondsContents(lines: seq<string>, from: nat, count: nat, regs: Registers, bonds: seq<Bond>)
    requires ReadBonds(lines, from, count, regs) == Some(bonds)
    ensures |bonds| == count
    ensures from + count <= |lines| || count == 0
    ensures count > 0 ==> BondsScanned(lines, from, bonds, regs)
  {
    ThreadBondsLength(BondLineAccepted, ScanBond, lines, from, count, regs);
    ThreadBondsSome(BondLineAccepted, ScanBond, lines, from, count, regs);
    forall k | 0 <= k < count
      ensures bonds[k] == BondOf(ScanBond(lines[from + k], RegistersBefore(bonds, regs, k)))
    {
      ThreadBondsAt(BondLineAccepted, ScanBond, lines, from, count, regs, k);
    }
  }

  /** The table reads exactly when all `n` atom lines and all `m` bond lines
      are there and well formed. */
  lemma {:induction false} ReadTableSome(lines: seq<string>, title: string, n: nat, m: nat, env: ReadEnv)
    ensures ReadTable(lines, title, n, m, env).Some? <==> AtomLinesOk(lines, 2, n) && BondLinesOk(lines, 2 + n, m)
  {
    var atomsOk := ReadAtoms(lines, 2, n, env.ft, env.table).Some?;
    var bondsOk := ReadBonds(lines, 2 + n, m, env.uninit).Some?;
    assert ReadTable(lines, title, n, m, env).Some? <==> atomsOk && bondsOk;
    ReadAtomsSome(lines, 2, n, env.ft, env.table);
    ReadBondsSome(lines, 2 + n, m, env.uninit);
  }

  /** A table read holds the atoms and bonds read from their lines, under
      the title given, and has consumed the title, counts, atom and bond
      lines. */
  lemma ReadTableParts(lines: seq<string>, title: string, n: nat, m: nat, env: ReadEnv, r: ReadResult)
    requires ReadTable(lines, title, n, m, env) == Some(r)
    ensures r.consumed == 2 + n + m
    ensures r.mol.title == Some(title)
    ensures ReadAtoms(lines, 2, n, env.ft, env.table) == Some(r.mol.atoms)
    ensures ReadBonds(lines, 2 + n, m, env.uninit) == Some(r.mol.bonds)
  {
  }

  /** A table read never consumes more lines than there are, unless it
      reads no atom or bond line at all from a file shorter than its two
      header lines. */
  lemma ReadTableFits(lines: seq<string>, title: string, n: nat, m: nat, env: ReadEnv, r: ReadResult)
    requires ReadTable(lines, title, n, m, env) == Some(r)
    ensures n + m > 0 || |lines| >= 2 ==> r.consumed <= |lines|
  {
    ReadTableParts(lines, title, n, m, env, r);
    ReadAtomsSome(lines, 2, n, env.ft, env.table);
    ReadBondsSome(lines, 2 + n, m, env.uninit);
  }

  /** The reader succeeds exactly when all `natoms` atom lines and all
      `nbonds` bond lines are there and well formed. */
  lemma ReadMoleculeSome(lines: seq<string>, convTitle: string, env: ReadEnv)
    ensures var (n, m) := HeaderCounts(lines, env);
      ReadMolecule(lines, convTitle, env).Some? <==> AtomLinesOk(lines, 2, n) && BondLinesOk(lines, 2 + n, m)
  {
    var (n, m) := HeaderCounts(lines, env);
    ReadTableSome(lines, TitleAsWritten(Buffer(lines, 0), convTitle), n, m, env);
  }

  /** A molecule read has `natoms` atoms and `nbonds` bonds, takes the title
      line when it is empty and the conversion's title otherwise, and has
      consumed the title, the counts and those lines, all of which exist
      once it reads any atom or bond. */
  lemma ReadMoleculeShape(lines: seq<string>, convTitle: string, env: ReadEnv, r: ReadResult)
    requires ReadMolecule(lines, convTitle, env) == Some(r)
    ensures var (n, m) := HeaderCounts(lines, env);
      && r.consumed == 2 + n + m
      && (n + m > 0 ==> r.consumed <= |lines|)
      && |r.mol.atoms| == n
      && |r.mol.bonds| == m
      && r.mol.title == Some(TitleAsWritten(Buffer(lines, 0), convTitle))
  {
    var (n, m) := HeaderCounts(lines, env);
    ReadTableShape(lines, TitleAsWritten(Buffer(lines, 0), convTitle), n, m, env, r);
  }

  lemma ReadTableShape(lines: seq<string>, title: string, n: nat, m: nat, env: ReadEnv, r: ReadResult)
    requires ReadTable(lines, title, n, m, env) == Some(r)
    ensures && r.consumed == 2 + n + m
            && (n + m > 0 ==> r.consumed <= |lines|)
            && |r.mol.atoms| == n
            && |r.mol.bonds| == m
            && r.mol.title == Some(title)
  {
    ReadTableParts(lines, title, n, m, env, r);
    ReadTableFits(lines, title, n, m, env, r);
    ReadAtomsLength(lines, 2, n, env.ft, env.table);
    ThreadBondsLength(BondLineAccepted, ScanBond, lines, 2 + n, m, env.uninit);
  }

  /** The atoms of a molecule read come from the lines after the header,
      one per line. */
  lemma ReadMoleculeAtoms(lines: seq<string>, convTitle: string, env: ReadEnv, r: ReadResult)
    requires ReadMolecule(lines, convTitle, env) == Some(r)
    ensures AtomsFromLines(lines, 2, r.mol.atoms, env.ft, env.table)
  {
    var (n, m) := HeaderCounts(lines, env);
    ReadTableAtoms(lines, TitleAsWritten(Buffer(lines, 0), convTitle), n, m, env, r);
  }

  lemma ReadTableAtoms(lines: seq<string>, title: string, n: nat, m: nat, env: ReadEnv, r: ReadResult)
    requires ReadTable(lines, title, n, m, env) == Some(r)
    ensures AtomsFromLines(lines, 2, r.mol.atoms, env.ft, env.table)
  {
    ReadTableParts(lines, title, n, m, env, r);
    ReadAtomsContents(lines, 2, n, env.ft, env.table, r.mol.atoms);
  }

  /** The bonds of a molecule read are those the bond loop reads from line
      `2 + natoms` on, starting from the registers' initial contents; those
      lines exist. */
  lemma ReadMoleculeBonds(lines: seq<string>, convTitle: string, env: ReadEnv, r: ReadResult)
    requires ReadMolecule(lines, convTitle, env) == Some(r)
    ensures var (n, m) := HeaderCounts(lines, env);
      && (m > 0 ==> 2 + n + m <= |lines|)
      && ReadBonds(lines, 2 + n, m, env.uninit) == Some(r.mol.bonds)
  {
    var (n, m) := HeaderCounts(lines, env);
    ReadTableParts(lines, TitleAsWritten(Buffer(lines, 0), convTitle), n, m, env, r);
    ReadTableFits(lines, TitleAsWritten(Buffer(lines, 0), convTitle), n, m, env, r);
  }

  /** The corrected reader reads exactly when the reader as it stands does,
      the same atoms, bonds and lines, and differs only in the title. */
  lemma IntendedDiffersOnlyInTitle(lines: seq<string>, convTitle: string, env: ReadEnv)
    ensures ReadMoleculeIntended(lines, convTitle, env).Some? <==> ReadMolecule(lines, convTitle, env).Some?
    ensures ReadMolecule(lines, convTitle, env).Some? ==>
      var r := ReadMolecule(lines, convTitle, env).value;
      var q := ReadMoleculeIntended(lines, convTitle, env).value;
      && q.mol.title == Some(TitleIntended(Buffer(lines, 0), convTitle))
      && q.mol.atoms == r.mol.atoms
      && q.mol.bonds == r.mol.bonds
      && q.consumed == r.consumed
  {
    var (n, m) := HeaderCounts(lines, env);
    var asWritten := TitleAsWritten(Buffer(lines, 0), convTitle);
    var intended := TitleIntended(Buffer(lines, 0), convTitle);
    ReadTableSome(lines, asWritten, n, m, env);
    ReadTableSome(lines, intended, n, m, env);
    if ReadMolecule(lines, convTitle, env).Some? {
      ReadTableParts(lines, asWritten, n, m, env, ReadMolecule(lines, convTitle, env).value);
      ReadTableParts(lines, intended, n, m, env, ReadMoleculeIntended(lines, convTitle, env).value);
    }
  }

  /** A counts line that scans both counts gives them as unsigned values;
      one that scans only the first keeps the bond count's prior value; one
      that scans neither keeps both. */
  lemma CountsScanned(line: string, prior: (nat, nat))
    ensures ScanInt(CString(line)).None? ==> Counts(line, prior) == prior
    ensures ScanInt(CString(line)).Some? ==>
      var (n, rest) := ScanInt(CString(line)).value;
      && Counts(line, prior).0 == Unsigned(n)
      && Counts(line, prior).1 == (if ScanInt(rest).Some? then Unsigned(ScanInt(rest).value.0) else prior.1)
  {
  }

  /** A negative atom count wraps to a count of more than two billion: a file
      with fewer atom lines than that is rejected. */
  lemma NegativeCountRejected(lines: seq<string>, convTitle: string, env: ReadEnv, v: int, rest: string)
    requires ScanInt(CString(Buffer(lines, 1))) == Some((v, rest))
    requires -UintRange <= v < 0
    requires |lines| < 2 + UintRange + v
    ensures ReadMolecule(lines, convTitle, env).None?
    ensures ReadMoleculeIntended(lines, convTitle, env).None?
  {
    var (n, m) := HeaderCounts(lines, env);
    assert n == v + UintRange;
    ReadMoleculeSome(lines, convTitle, env);
    IntendedDiffersOnlyInTitle(lines, convTitle, env);
  }

  /** The counts line " -1 0" is read as 4294967295 atoms, so a file
      holding it and nothing else is rejected. */
  lemma MinusOneAtomsRejected(convTitle: string, env: ReadEnv)
    ensures ReadMolecule(["t", " -1 0"], convTitle, env).None?
  {
    var line: string := [' ', '-', '1', ' ', '0'];
    assert line == " -1 0";
    CStringOfPlain(line);
    assert line == " " + IntText(-1) + " 0";
    ScanIntText(" ", -1, " 0");
    NegativeCountRejected(["t", line], convTitle, env, -1, " 0");
  }

  /** A bond line's begin index is its first integer, whatever the
      registers held. */
  lemma ScanBondBegin(line: string, regs: Registers)
    requires BondLineAccepted(line)
    ensures ScanBond(line, regs).begin == ScanInt(CString(line)).value.0
  {
  }

  /** A line whose first three integers all scan gives the same registers
      whatever they held before. */
  lemma ScanBondComplete(line: string, regs: Registers, a: int, b: int, c: int, rest: string)
    requires ScanInt(CString(line)) == Some((a, rest))
    requires ScanInt(rest).Some? && ScanInt(rest).value.0 == b
    requires ScanInt(ScanInt(rest).value.1).Some? && ScanInt(ScanInt(rest).value.1).value.0 == c
    ensures ScanBond(line, regs) == Registers(a, b, c)
  {
  }

  /** Reading atoms and bonds looks only at the lines it needs. */
  lemma {:induction false} ReadAtomsPrefix(lines: seq<string>, extra: seq<string>, from: nat, count: nat, ft: FloatText, table: ElementTable)
    requires from + count <= |lines|
    ensures ReadAtoms(lines + extra, from, count, ft, table) == ReadAtoms(lines, from, count, ft, table)
    decreases count
  {
    if count > 0 {
      assert (lines + extra)[from] == lines[from];
      ReadAtomsPrefix(lines, extra, from + 1, count - 1, ft, table);
    }
  }

  lemma {:induction false} ThreadBondsPrefix(accepts: string -> bool, scan: (string, Registers) -> Registers,
                                             lines: seq<string>, extra: seq<string>, from: nat, count: nat, regs: Registers)
    requires from + count <= |lines|
    ensures ThreadBonds(accepts, scan, lines + extra, from, count, regs)
         == ThreadBonds(accepts, scan, lines, from, count, regs)
    decreases count
  {
    if count > 0 {
      assert (lines + extra)[from] == lines[from];
      ThreadBondsPrefix(accepts, scan, lines, extra, from + 1, count - 1, scan(lines[from], regs));
    }
  }

  lemma ReadTablePrefix(lines: seq<string>, extra: seq<string>, title: string, n: nat, m: nat, env: ReadEnv)
    requires 2 + n + m <= |lines|
    ensures ReadTable(lines + extra, title, n, m, env) == ReadTable(lines, title, n, m, env)
  {
    ReadAtomsPrefix(lines, extra, 2, n, env.ft, env.table);
    ThreadBondsPrefix(BondLineAccepted, ScanBond, lines, extra, 2 + n, m, env.uninit);
  }

  /** Lines after the `2 + natoms + nbonds` the reader needs are left
      unread: appending any does not change what is read. */
  lemma TrailingLinesIgnored(lines: seq<string>, extra: seq<string>, convTitle: string, env: ReadEnv)
    requires var (n, m) := HeaderCounts(lines, env); 2 + n + m <= |lines|
    ensures ReadMolecule(lines + extra, convTitle, env) == ReadMolecule(lines, convTitle, env)
  {
    var (n, m) := HeaderCounts(lines, env);
    assert Buffer(lines + extra, 0) == Buffer(lines, 0) && Buffer(lines + extra, 1) == Buffer(lines, 1);
    ReadTablePrefix(lines, extra, TitleAsWritten(Buffer(lines, 0), convTitle), n, m, env);
  }

  // ---------------------------------------------------------------------------
  // Writer and reader together
  // ---------------------------------------------------------------------------

  /** A `%3d` column stays apart from the one before it only when the number
      leaves room for a blank: at most two characters. */
  predicate FitsColumn(v: int) {
    |IntText(v)| < 3
  }

  /** The numbers that fit are exactly -9 through 99. */
  lemma FitsColumnRange(v: int)
    ensures FitsColumn(v) <==> -9 <= v <= 99
  {
    if v < 0 {
      NatTextWidth(-v);
    } else {
      NatTextWidth(v);
    }
  }

  /** What the writer's text of an atom reads back as: x and y through
      `%9.4f` and `atof`, z through the fixed zero column, the element
      through its symbol. */
  function Reread(a: Atom, ft: FloatText, table: ElementTable): Atom {
    Atom(Vec3(ft.parse(ft.format(a.pos.x)), ft.parse(ft.format(a.pos.y)), ft.parse(ZeroZ)),
         table.atomicNum(table.symbol(a.atomicNum)))
  }

  /** An atom whose coordinates and symbol print as single fields. */
  predicate AtomWritable(a: Atom, ft: FloatText, table: ElementTable) {
    Field(ft.format(a.pos.x)) && Field(ft.format(a.pos.y)) && Field(table.symbol(a.atomicNum))
  }

  /** A bond whose end index and order fit their `%3d` columns. */
  predicate BondWritable(b: Bond) {
    FitsColumn(b.end) && FitsColumn(b.order)
  }

  /** The largest value `%d` prints as it is. */
  const IntMax: int := 0x7FFF_FFFF

  /** A molecule the corrected writer writes and the corrected reader reads
      back: a title that stays on one line, counts `%d` prints as they are,
      and atoms whose coordinates and symbol print as single fields. */
  predicate Representable(mol: Mol, ft: FloatText, table: ElementTable) {
    && mol.title.Some? && '\n' !in mol.title.value
    && |mol.atoms| <= IntMax && |mol.bonds| <= IntMax
    && (forall i :: 0 <= i < |mol.atoms| ==> AtomWritable(mol.atoms[i], ft, table))
  }

  /** A molecule the writer as it stands writes and the reader reads back:
      representable, with bonds that fit their columns. */
  predicate Writable(mol: Mol, ft: FloatText, table: ElementTable) {
    && Representable(mol, ft, table)
    && (forall k :: 0 <= k < |mol.bonds| ==> BondWritable(mol.bonds[k]))
  }

  /** The counts line scans back to the atom and bond counts, whatever the
      count variables held. */
  lemma CountsRoundTrip(mol: Mol, prior: (nat, nat))
    requires |mol.atoms| <= IntMax && |mol.bonds| <= IntMax
    ensures Counts(CountsLine(mol), prior) == (|mol.atoms|, |mol.bonds|)
  {
    var line := CountsLine(mol);
    var tail := " " + IntText(|mol.bonds|);
    IntTextNoNul(|mol.atoms|);
    IntTextNoNul(|mol.bonds|);
    assert '\0' !in line;
    CStringOfPlain(line);
    assert line == " " + IntText(|mol.atoms|) + tail;
    ScanIntText(" ", |mol.atoms|, tail);
    assert tail == " " + IntText(|mol.bonds|) + "";
    ScanIntText(" ", |mol.bonds|, "");
  }

  /** An atom line of writable fields holds no NUL. */
  lemma AtomLineNoNul(a: Atom, ft: FloatText, table: ElementTable)
    requires AtomWritable(a, ft, table)
    ensures '\0' !in AtomLine(a, ft, table)
  {
  }

  /** How an atom line regroups into its four fields, each after its
      blanks. */
  lemma AtomLayout(line: string, p1: string, p2: string, w1: string, t1: string, w2: string, t2: string,
                   z: string, sym: string)
    requires p1 == w1 + t1 && p2 == w2 + t2
    requires line == " " + p1 + " " + p2 + "    " + z + " " + sym
    ensures line == ((" " + w1) + t1) + ((" " + w2) + t2) + ("    " + z) + (" " + sym)
  {
  }

  /** An atom line splits into x, y, the zero z and the element symbol. */
  lemma AtomLineFields(a: Atom, ft: FloatText, table: ElementTable)
    requires AtomWritable(a, ft, table)
    ensures Fields(AtomLine(a, ft, table)) == WrittenFields(a, ft, table)
  {
    var fx := ft.format(a.pos.x);
    var fy := ft.format(a.pos.y);
    var sym := table.symbol(a.atomicNum);
    var s1 := Spaces(PadWidth(fx, 9));
    var s2 := Spaces(PadWidth(fy, 9));
    PadLeftSplit(fx, 9);
    PadLeftSplit(fy, 9);
    assert PadRight(sym, 1) == sym;
    AtomLineNoNul(a, ft, table);
    CStringOfPlain(AtomLine(a, ft, table));
    AtomLayout(AtomLine(a, ft, table), PadLeft(fx, 9), PadLeft(fy, 9), s1, fx, s2, fy, ZeroZ, sym);
    AllSpaceJoin(" ", s1);
    AllSpaceJoin(" ", s2);
    assert AllSpace("    ") && AllSpace(" ") && IsToken(ZeroZ);
    TokenizeFour(" " + s1, fx, " " + s2, fy, "    ", ZeroZ, " ", sym);
  }

  /** The blanks `%3d` puts before the digits of `v`. */
  function Gap(v: int): string {
    Spaces(PadWidth(IntText(v), 3))
  }

  /** A column is its blanks, at least one when the number fits, then the
      number. */
  lemma ColumnSplit(v: int)
    ensures Column(v) == Gap(v) + IntText(v)
    ensures AllSpace(Gap(v))
    ensures FitsColumn(v) ==> |Gap(v)| > 0
  {
    PadLeftSplit(IntText(v), 3);
  }

  lemma BondLineNoNul(b: Bond)
    ensures '\0' !in BondLine(b)
  {
    ColumnNoNul(b.begin);
    ColumnNoNul(b.end);
    ColumnNoNul(b.order);
  }

  /** A bond line whose columns stay apart splits into begin, end, and the
      order twice. */
  lemma BondLineFields(b: Bond)
    requires BondWritable(b)
    ensures Fields(BondLine(b)) == [IntText(b.begin), IntText(b.end), IntText(b.order), IntText(b.order)]
  {
    ColumnSplit(b.begin);
    ColumnSplit(b.end);
    ColumnSplit(b.order);
    BondLineNoNul(b);
    CStringOfPlain(BondLine(b));
    TokenizeFour(Gap(b.begin), IntText(b.begin), Gap(b.end), IntText(b.end),
                 Gap(b.order), IntText(b.order), Gap(b.order), IntText(b.order));
  }

  /** A NUL-free line holding three integers, each after blanks and
      followed by a non-digit or the end, scans to those three. */
  lemma ScanThreeInts(line: string, regs: Registers, w1: string, a: int, r1: string,
                      w2: string, b: int, r2: string, w3: string, c: int, r3: string)
    requires '\0' !in line
    requires AllSpace(w1) && AllSpace(w2) && AllSpace(w3)
    requires line == w1 + IntText(a) + r1
    requires r1 == w2 + IntText(b) + r2
    requires r2 == w3 + IntText(c) + r3
    requires |r1| > 0 && !IsDigit(r1[0])
    requires |r2| > 0 && !IsDigit(r2[0])
    requires |r3| == 0 || !IsDigit(r3[0])
    ensures ScanInt(CString(line)).Some?
    ensures ScanBond(line, regs) == Registers(a, b, c)
  {
    CStringOfPlain(line);
    ScanIntText(w1, a, r1);
    ScanIntText(w2, b, r2);
    ScanIntText(w3, c, r3);
    ScanBondComplete(line, regs, a, b, c, r1);
  }

  /** How four columns regroup around each number in turn. */
  lemma ColumnsLayout(ca: string, cb: string, cc: string, ga: string, ta: string,
                      gb: string, tb: string, gc: string, tc: string)
    requires ca == ga + ta && cb == gb + tb && cc == gc + tc
    requires |gb| > 0 && |gc| > 0
    ensures ca + cb + cc + cc == ga + ta + (cb + (cc + cc))
    ensures cb + (cc + cc) == gb + tb + (cc + cc)
    ensures cc + cc == gc + tc + cc
    ensures (cb + (cc + cc))[0] == gb[0] && (cc + cc)[0] == gc[0] && cc[0] == gc[0]
  {
  }

  /** The layout step of `BondLineScan`: four columns, the last three
      opening with a blank. */
  lemma ScanColumns(line: string, regs: Registers, ca: string, cb: string, cc: string,
                    ga: string, a: int, gb: string, b: int, gc: string, c: int)
    requires '\0' !in line
    requires AllSpace(ga) && AllSpace(gb) && AllSpace(gc)
    requires |gb| > 0 && |gc| > 0
    requires ca == ga + IntText(a) && cb == gb + IntText(b) && cc == gc + IntText(c)
    requires line == ca + cb + cc + cc
    ensures ScanInt(CString(line)).Some?
    ensures ScanBond(line, regs) == Registers(a, b, c)
  {
    ColumnsLayout(ca, cb, cc, ga, IntText(a), gb, IntText(b), gc, IntText(c));
    ScanThreeInts(line, regs, ga, a, cb + (cc + cc), gb, b, cc + cc, gc, c, cc);
  }

  /** Reading back a bond line whose columns stay apart accepts it and
      gives the bond's begin, end and order, whatever the registers held. */
  lemma BondLineScan(b: Bond, regs: Registers)
    requires BondWritable(b)
    ensures BondLineAccepted(BondLine(b))
    ensures ScanBond(BondLine(b), regs) == Registers(b.begin, b.end, b.order)
  {
    BondLineFields(b);
    ColumnSplit(b.begin);
    ColumnSplit(b.end);
    ColumnSplit(b.order);
    BondLineNoNul(b);
    ScanColumns(BondLine(b), regs, Column(b.begin), Column(b.end), Column(b.order),
                Gap(b.begin), b.begin, Gap(b.end), b.end, Gap(b.order), b.order);
  }

  /** `%3d` is a minimum width: an end index of three digits fills its
      column, runs into the begin index before it, and the line has only
      three fields, which the reader rejects. */
  lemma BondColumnsMerge(b: Bond)
    requires 100 <= b.end <= 999 && FitsColumn(b.order)
    ensures Fields(BondLine(b)) == [IntText(b.begin) + IntText(b.end), IntText(b.order), IntText(b.order)]
    ensures !BondLineAccepted(BondLine(b))
  {
    ColumnSplit(b.begin);
    ColumnSplit(b.end);
    ColumnSplit(b.order);
    NatTextWidth(b.end);
    assert Gap(b.end) == "";
    TokenJoin(IntText(b.begin), IntText(b.end));
    BondLineNoNul(b);
    CStringOfPlain(BondLine(b));
    MergedLayout(BondLine(b), Column(b.begin), Column(b.end), Column(b.order),
                 Gap(b.begin), IntText(b.begin), IntText(b.end), Gap(b.order), IntText(b.order));
    TokenizeThree(Gap(b.begin), IntText(b.begin) + IntText(b.end), Gap(b.order), IntText(b.order),
                  Gap(b.order), IntText(b.order));
  }

  /** How a line regroups when its second column has no blanks. */
  lemma MergedLayout(line: string, ca: string, cb: string, cc: string,
                     ga: string, ta: string, tb: string, gc: string, tc: string)
    requires ca == ga + ta && cb == "" + tb && cc == gc + tc
    requires line == ca + cb + cc + cc
    ensures line == (ga + (ta + tb)) + (gc + tc) + (gc + tc)
  {
  }

  /** A spaced column is its blanks, at least one, then the number. */
  lemma SpacedColumnSplit(v: int)
    ensures SpacedColumn(v) == (" " + Gap(v)) + IntText(v)
    ensures AllSpace(" " + Gap(v)) && |" " + Gap(v)| > 0
  {
    ColumnSplit(v);
    Regroup(" ", Column(v), Gap(v), IntText(v));
    AllSpaceJoin(" ", Gap(v));
  }

  lemma Regroup(x: string, c: string, g: string, t: string)
    requires c == g + t
    ensures x + c == (x + g) + t
  {
  }

  lemma ColumnNoNul(v: int)
    ensures '\0' !in Column(v) && '\0' !in SpacedColumn(v)
  {
    ColumnSplit(v);
    IntTextNoNul(v);
  }

  lemma BondLineIntendedNoNul(b: Bond)
    ensures '\0' !in BondLineIntended(b)
  {
    ColumnNoNul(b.begin);
    ColumnNoNul(b.end);
    ColumnNoNul(b.order);
  }

  /** Every corrected bond line splits into begin, end, and the order
      twice, whatever their size. */
  lemma BondLineIntendedFields(b: Bond)
    ensures Fields(BondLineIntended(b)) == [IntText(b.begin), IntText(b.end), IntText(b.order), IntText(b.order)]
  {
    ColumnSplit(b.begin);
    SpacedColumnSplit(b.end);
    SpacedColumnSplit(b.order);
    BondLineIntendedNoNul(b);
    CStringOfPlain(BondLineIntended(b));
    TokenizeFour(Gap(b.begin), IntText(b.begin), " " + Gap(b.end), IntText(b.end),
                 " " + Gap(b.order), IntText(b.order), " " + Gap(b.order), IntText(b.order));
  }

  /** Every corrected bond line is accepted and reads back as its begin, end
      and order, whatever the registers held. */
  lemma BondLineIntendedScan(b: Bond, regs: Registers)
    ensures BondLineAccepted(BondLineIntended(b))
    ensures ScanBond(BondLineIntended(b), regs) == Registers(b.begin, b.end, b.order)
  {
    BondLineIntendedFields(b);
    ColumnSplit(b.begin);
    SpacedColumnSplit(b.end);
    SpacedColumnSplit(b.order);
    BondLineIntendedNoNul(b);
    ScanColumns(BondLineIntended(b), regs, Column(b.begin), SpacedColumn(b.end), SpacedColumn(b.order),
                Gap(b.begin), b.begin, " " + Gap(b.end), b.end, " " + Gap(b.order), b.order);
  }

  // ---------------------------------------------------------------------------
  // Whole-molecule round trip
  // ---------------------------------------------------------------------------

  /** The atoms as the reader gets them back from a written file. */
  function RereadAll(atoms: seq<Atom>, ft: FloatText, table: ElementTable): seq<Atom> {
    seq(|atoms|, i requires 0 <= i < |atoms| => Reread(atoms[i], ft, table))
  }

  /** The title the reader settles on for a written title `t`. */
  function TitleReadBack(t: string, convTitle: string): string {
    if CString(t) == "" then convTitle else CString(t)
  }

  /** Where the writer puts each line: the title, the counts, then the
      atom lines and the bond lines in molecule order. */
  lemma WriteMoleculeLayout(mol: Mol, ft: FloatText, table: ElementTable, bondLine: Bond -> string)
    requires mol.title.Some?
    ensures var lines := FileLines(mol, ft, table, bondLine);
      && lines[0] == CString(mol.title.value)
      && lines[1] == CountsLine(mol)
      && HoldsAtomLines(lines, 2, mol.atoms, ft, table)
      && HoldsBondLines(lines, 2 + |mol.atoms|, mol.bonds, bondLine)
  {
    SplitLines(FileLines(mol, ft, table, bondLine), [CString(mol.title.value), CountsLine(mol)],
               AtomLines(mol.atoms, ft, table), BondLines(mol.bonds, bondLine));
  }

  /** Where the parts of a concatenation of lines sit in it. */
  lemma SplitLines(lines: seq<string>, head: seq<string>, xs: seq<string>, ys: seq<string>)
    requires lines == head + xs + ys
    ensures forall i :: 0 <= i < |head| ==> lines[i] == head[i]
    ensures forall i :: 0 <= i < |xs| ==> lines[|head| + i] == xs[i]
    ensures forall k :: 0 <= k < |ys| ==> lines[|head| + |xs| + k] == ys[k]
  {
  }

  /** `lines[from..]` starts with the atom lines of `atoms`. */
  predicate HoldsAtomLines(lines: seq<string>, from: nat, atoms: seq<Atom>, ft: FloatText, table: ElementTable) {
    && from + |atoms| <= |lines|
    && forall i :: 0 <= i < |atoms| ==> lines[from + i] == AtomLine(atoms[i], ft, table)
  }

  /** `lines[from..]` starts with the lines `bondLine` prints for `bonds`. */
  predicate HoldsBondLines(lines: seq<string>, from: nat, bonds: seq<Bond>, bondLine: Bond -> string) {
    && from + |bonds| <= |lines|
    && forall k :: 0 <= k < |bonds| ==> lines[from + k] == bondLine(bonds[k])
  }

  /** The four fields of a written atom line. */
  function WrittenFields(a: Atom, ft: FloatText, table: ElementTable): seq<string> {
    [ft.format(a.pos.x), ft.format(a.pos.y), ZeroZ, table.symbol(a.atomicNum)]
  }

  /** Lines whose fields are those written for `atoms` read back as their
      rereads. */
  lemma {:induction false} ReadAtomsOfFields(lines: seq<string>, from: nat, atoms: seq<Atom>, ft: FloatText, table: ElementTable)
    requires from + |atoms| <= |lines|
    requires forall k :: from <= k < from + |atoms| ==> Fields(lines[k]) == WrittenFields(atoms[k - from], ft, table)
    ensures ReadAtoms(lines, from, |atoms|, ft, table) == Some(RereadAll(atoms, ft, table))
    decreases |atoms|
  {
    if |atoms| > 0 {
      assert Fields(lines[from]) == WrittenFields(atoms[0], ft, table);
      var rest := atoms[1..];
      forall k | from + 1 <= k < from + 1 + |rest|
        ensures Fields(lines[k]) == WrittenFields(rest[k - (from + 1)], ft, table)
      {
        assert rest[k - (from + 1)] == atoms[k - from];
      }
      ReadAtomsOfFields(lines, from + 1, rest, ft, table);
      RereadAllCons(atoms, ft, table);
    }
  }

  lemma RereadAllCons(atoms: seq<Atom>, ft: FloatText, table: ElementTable)
    requires |atoms| > 0
    ensures RereadAll(atoms, ft, table) == [Reread(atoms[0], ft, table)] + RereadAll(atoms[1..], ft, table)
  {
    assert forall i :: 0 <= i < |atoms| - 1 ==> atoms[1..][i] == atoms[i + 1];
  }

  /** The registers a line leaves when it scans to bond `b`. */
  function RegistersOf(b: Bond): Registers {
    Registers(b.begin, b.end, b.order)
  }

  /** `scan` takes `line` to the registers of bond `b` whatever they held
      before. */
  ghost predicate ScansTo(scan: (string, Registers) -> Registers, line: string, b: Bond) {
    forall r :: scan(line, r) == RegistersOf(b)
  }

  /** Lines each accepted and each scanning to its bond thread to exactly
      those bonds. */
  lemma {:induction false} ThreadBondsOfScans(accepts: string -> bool, scan: (string, Registers) -> Registers,
                                              lines: seq<string>, from: nat, bonds: seq<Bond>, regs: Registers)
    requires from + |bonds| <= |lines|
    requires forall k :: from <= k < from + |bonds| ==> accepts(lines[k])
    requires forall k :: from <= k < from + |bonds| ==> ScansTo(scan, lines[k], bonds[k - from])
    ensures ThreadBonds(accepts, scan, lines, from, |bonds|, regs) == Some(bonds)
    decreases |bonds|
  {
    if |bonds| > 0 {
      assert accepts(lines[from]) && ScansTo(scan, lines[from], bonds[0]);
      var r := scan(lines[from], regs);
      assert r == RegistersOf(bonds[0]);
      var rest := bonds[1..];
      forall k | from + 1 <= k < from + 1 + |rest|
        ensures ScansTo(scan, lines[k], rest[k - (from + 1)])
      {
        assert rest[k - (from + 1)] == bonds[k - from];
      }
      ThreadBondsOfScans(accepts, scan, lines, from + 1, rest, r);
      assert bonds == [bonds[0]] + rest;
    }
  }

  /** The line `bondLine` prints for `b` is accepted and scans to `b`
      whatever the registers held. */
  ghost predicate ReadsBack(bondLine: Bond -> string, b: Bond) {
    BondLineAccepted(bondLine(b)) && ScansTo(ScanBond, bondLine(b), b)
  }

  /** A bond whose columns stay apart reads back from its line. */
  lemma BondLineReadsBack(b: Bond)
    requires BondWritable(b)
    ensures ReadsBack(BondLine, b)
  {
    BondLineScan(b, RegistersOf(b));
    forall r
      ensures ScanBond(BondLine(b), r) == RegistersOf(b)
    {
      BondLineScan(b, r);
    }
    assert ScansTo(ScanBond, BondLine(b), b);
  }

  /** Every bond reads back from its corrected line. */
  lemma BondLineIntendedReadsBack(b: Bond)
    ensures ReadsBack(BondLineIntended, b)
  {
    BondLineIntendedScan(b, RegistersOf(b));
    forall r
      ensures ScanBond(BondLineIntended(b), r) == RegistersOf(b)
    {
      BondLineIntendedScan(b, r);
    }
    assert ScansTo(ScanBond, BondLineIntended(b), b);
  }

  /** Lines holding bond lines that each read back give those bonds,
      whatever the registers held. */
  lemma ReadBondsOfLines(lines: seq<string>, from: nat, bonds: seq<Bond>, regs: Registers, bondLine: Bond -> string)
    requires HoldsBondLines(lines, from, bonds, bondLine)
    requires forall k :: 0 <= k < |bonds| ==> ReadsBack(bondLine, bonds[k])
    ensures ReadBonds(lines, from, |bonds|, regs) == Some(bonds)
  {
    forall k | from <= k < from + |bonds|
      ensures BondLineAccepted(lines[k]) && ScansTo(ScanBond, lines[k], bonds[k - from])
    {
      assert lines[from + (k - from)] == bondLine(bonds[k - from]);
      assert ReadsBack(bondLine, bonds[k - from]);
    }
    ThreadBondsOfScans(BondLineAccepted, ScanBond, lines, from, bonds, regs);
  }

  /** A written file has two header lines, its counts line reads back as
      the molecule's counts, and its title line reads back as the title
      under either condition. */
  lemma RoundTripHeader(mol: Mol, ft: FloatText, table: ElementTable, bondLine: Bond -> string,
                        convTitle: string, prior: (nat, nat))
    requires Representable(mol, ft, table)
    ensures var lines := FileLines(mol, ft, table, bondLine);
      && Counts(Buffer(lines, 1), prior) == (|mol.atoms|, |mol.bonds|)
      && TitleIntended(Buffer(lines, 0), convTitle) == TitleReadBack(mol.title.value, convTitle)
      && TitleAsWritten(Buffer(lines, 0), convTitle) == if CString(mol.title.value) == "" then "" else convTitle
  {
    WriteMoleculeLayout(mol, ft, table, bondLine);
    CountsRoundTrip(mol, prior);
    CStringOfPlain(CString(mol.title.value));
  }

  /** Line `k` of lines holding the atom lines of `atoms` has the fields
      written for its atom. */
  lemma AtomLineFieldsAt(lines: seq<string>, from: nat, atoms: seq<Atom>, ft: FloatText, table: ElementTable, k: nat)
    requires HoldsAtomLines(lines, from, atoms, ft, table)
    requires from <= k < from + |atoms|
    requires AtomWritable(atoms[k - from], ft, table)
    ensures Fields(lines[k]) == WrittenFields(atoms[k - from], ft, table)
  {
    assert lines[from + (k - from)] == AtomLine(atoms[k - from], ft, table);
    AtomLineFields(atoms[k - from], ft, table);
  }

  /** The atom lines of a written file read back as the rereads of the
      molecule's atoms. */
  lemma RoundTripAtoms(mol: Mol, ft: FloatText, table: ElementTable, bondLine: Bond -> string)
    requires Representable(mol, ft, table)
    ensures ReadAtoms(FileLines(mol, ft, table, bondLine), 2, |mol.atoms|, ft, table) == Some(RereadAll(mol.atoms, ft, table))
  {
    var lines := FileLines(mol, ft, table, bondLine);
    WriteMoleculeLayout(mol, ft, table, bondLine);
    ReadAtomsOfLines(lines, 2, mol.atoms, ft, table);
  }

  /** Lines holding the atom lines of writable atoms read back as their
      rereads. */
  lemma ReadAtomsOfLines(lines: seq<string>, from: nat, atoms: seq<Atom>, ft: FloatText, table: ElementTable)
    requires HoldsAtomLines(lines, from, atoms, ft, table)
    requires forall i :: 0 <= i < |atoms| ==> AtomWritable(atoms[i], ft, table)
    ensures ReadAtoms(lines, from, |atoms|, ft, table) == Some(RereadAll(atoms, ft, table))
  {
    forall k | from <= k < from + |atoms|
      ensures Fields(lines[k]) == WrittenFields(atoms[k - from], ft, table)
    {
      AtomLineFieldsAt(lines, from, atoms, ft, table, k);
    }
    ReadAtomsOfFields(lines, from, atoms, ft, table);
  }

  /** The bond lines of a written file read back as the molecule's bonds,
      whatever the registers held before, when each bond reads back from its
      line. */
  lemma RoundTripBonds(mol: Mol, ft: FloatText, table: ElementTable, bondLine: Bond -> string, regs: Registers)
    requires mol.title.Some?
    requires forall k :: 0 <= k < |mol.bonds| ==> ReadsBack(bondLine, mol.bonds[k])
    ensures ReadBonds(FileLines(mol, ft, table, bondLine), 2 + |mol.atoms|, |mol.bonds|, regs) == Some(mol.bonds)
  {
    WriteMoleculeLayout(mol, ft, table, bondLine);
    ReadBondsOfLines(FileLines(mol, ft, table, bondLine), 2 + |mol.atoms|, mol.bonds, regs, bondLine);
  }

  /** A table whose atom and bond lines each read holds those atoms and
      bonds. */
  lemma ReadTableOfParts(lines: seq<string>, title: string, n: nat, m: nat, env: ReadEnv,
                         atoms: seq<Atom>, bonds: seq<Bond>)
    requires ReadAtoms(lines, 2, n, env.ft, env.table) == Some(atoms)
    requires ReadBonds(lines, 2 + n, m, env.uninit) == Some(bonds)
    ensures ReadTable(lines, title, n, m, env) == Some(ReadResult(Mol(Some(title), atoms, bonds), 2 + n + m))
  {
  }

  /** A file whose counts, atom lines and bond lines each read gives the
      molecule of those parts, under either title condition. */
  lemma ReadMoleculeOfParts(lines: seq<string>, convTitle: string, env: ReadEnv, n: nat, m: nat,
                            atoms: seq<Atom>, bonds: seq<Bond>)
    requires HeaderCounts(lines, env) == (n, m)
    requires ReadAtoms(lines, 2, n, env.ft, env.table) == Some(atoms)
    requires ReadBonds(lines, 2 + n, m, env.uninit) == Some(bonds)
    ensures ReadMolecule(lines, convTitle, env)
         == Some(ReadResult(Mol(Some(TitleAsWritten(Buffer(lines, 0), convTitle)), atoms, bonds), 2 + n + m))
    ensures ReadMoleculeIntended(lines, convTitle, env)
         == Some(ReadResult(Mol(Some(TitleIntended(Buffer(lines, 0), convTitle)), atoms, bonds), 2 + n + m))
  {
    ReadTableOfParts(lines, TitleAsWritten(Buffer(lines, 0), convTitle), n, m, env, atoms, bonds);
    ReadTableOfParts(lines, TitleIntended(Buffer(lines, 0), convTitle), n, m, env, atoms, bonds);
  }

  /** Writing a representable molecule with its bond columns apart and
      reading the file back with the title condition corrected gives its
      title (or the conversion's, for an empty one), the rereads of its atoms
      and its bonds, and consumes exactly the lines written. */
  lemma RoundTrip(mol: Mol, ft: FloatText, table: ElementTable, convTitle: string, env: ReadEnv)
    requires Representable(mol, ft, table)
    requires env.ft == ft && env.table == table
    ensures ReadMoleculeIntended(WriteMoleculeIntended(mol, ft, table), convTitle, env).Some?
    ensures ReadMoleculeIntended(WriteMoleculeIntended(mol, ft, table), convTitle, env).value.mol.title
         == Some(TitleReadBack(mol.title.value, convTitle))
    ensures ReadMoleculeIntended(WriteMoleculeIntended(mol, ft, table), convTitle, env).value.mol.atoms
         == RereadAll(mol.atoms, ft, table)
    ensures ReadMoleculeIntended(WriteMoleculeIntended(mol, ft, table), convTitle, env).value.mol.bonds == mol.bonds
    ensures ReadMoleculeIntended(WriteMoleculeIntended(mol, ft, table), convTitle, env).value.consumed
         == |WriteMoleculeIntended(mol, ft, table)|
  {
    RoundTripHeader(mol, ft, table, BondLineIntended, convTitle, env.uninitCounts);
    RoundTripAtoms(mol, ft, table, BondLineIntended);
    forall k | 0 <= k < |mol.bonds|
      ensures ReadsBack(BondLineIntended, mol.bonds[k])
    {
      BondLineIntendedReadsBack(mol.bonds[k]);
    }
    RoundTripBonds(mol, ft, table, BondLineIntended, env.uninit);
    ReadMoleculeOfParts(FileLines(mol, ft, table, BondLineIntended), convTitle, env, |mol.atoms|, |mol.bonds|,
                        RereadAll(mol.atoms, ft, table), mol.bonds);
  }

  /** The writer and reader as they stand: for a writable molecule, a
      non-empty title never survives (the conversion's title replaces it)
      and an empty one stays empty; atoms, bonds and consumption are as in
      `RoundTrip`. */
  lemma RoundTripAsWritten(mol: Mol, ft: FloatText, table: ElementTable, convTitle: string, env: ReadEnv)
    requires Writable(mol, ft, table)
    requires env.ft == ft && env.table == table
    ensures ReadMolecule(WriteMolecule(mol, ft, table), convTitle, env).Some?
    ensures ReadMolecule(WriteMolecule(mol, ft, table), convTitle, env).value.mol.title
         == Some(if CString(mol.title.value) == "" then "" else convTitle)
    ensures ReadMolecule(WriteMolecule(mol, ft, table), convTitle, env).value.mol.atoms == RereadAll(mol.atoms, ft, table)
    ensures ReadMolecule(WriteMolecule(mol, ft, table), convTitle, env).value.mol.bonds == mol.bonds
    ensures ReadMolecule(WriteMolecule(mol, ft, table), convTitle, env).value.consumed == |WriteMolecule(mol, ft, table)|
  {
    RoundTripHeader(mol, ft, table, BondLine, convTitle, env.uninitCounts);
    RoundTripAtoms(mol, ft, table, BondLine);
    forall k | 0 <= k < |mol.bonds|
      ensures ReadsBack(BondLine, mol.bonds[k])
    {
      BondLineReadsBack(mol.bonds[k]);
    }
    RoundTripBonds(mol, ft, table, BondLine, env.uninit);
    ReadMoleculeOfParts(FileLines(mol, ft, table, BondLine), convTitle, env, |mol.atoms|, |mol.bonds|,
                        RereadAll(mol.atoms, ft, table), mol.bonds);
  }

  /** A concrete case: a molecule titled "benzene", read back under the
      conversion title "input.ct", comes back titled "input.ct" as written
      and "benzene" as intended. */
  lemma TitleLostExample(ft: FloatText, table: ElementTable, env: ReadEnv)
    requires env.ft == ft && env.table == table
    ensures var lines := WriteMolecule(Mol(Some("benzene"), [], []), ft, table);
      && ReadMolecule(lines, "input.ct", env).Some?
      && ReadMolecule(lines, "input.ct", env).value.mol.title == Some("input.ct")
      && ReadMoleculeIntended(lines, "input.ct", env).Some?
      && ReadMoleculeIntended(lines, "input.ct", env).value.mol.title == Some("benzene")
  {
    var mol := Mol(Some("benzene"), [], []);
    CStringOfPlain("benzene");
    assert Writable(mol, ft, table);
    RoundTripAsWritten(mol, ft, table, "input.ct", env);
    RoundTripHeader(mol, ft, table, BondLine, "input.ct", env.uninitCounts);
    IntendedDiffersOnlyInTitle(WriteMolecule(mol, ft, table), "input.ct", env);
  }

  /** The writer as it stands loses a molecule with a bond whose end index
      has three digits: the reader rejects the file it writes. */
  lemma LargeIndexNotReadBack(mol: Mol, ft: FloatText, table: ElementTable, convTitle: string, env: ReadEnv, k: nat)
    requires Representable(mol, ft, table)
    requires k < |mol.bonds| && 100 <= mol.bonds[k].end <= 999 && FitsColumn(mol.bonds[k].order)
    ensures ReadMolecule(WriteMolecule(mol, ft, table), convTitle, env).None?
  {
    var lines := WriteMolecule(mol, ft, table);
    RoundTripHeader(mol, ft, table, BondLine, convTitle, env.uninitCounts);
    WriteMoleculeLayout(mol, ft, table, BondLine);
    BondColumnsMerge(mol.bonds[k]);
    assert lines[2 + |mol.atoms| + k] == BondLine(mol.bonds[k]);
    assert !BondLinesOk(lines, 2 + |mol.atoms|, |mol.bonds|);
    ReadMoleculeSome(lines, convTitle, env);
  }
}

=== FILE: geometry.dfy ===
/** The bond geometry solver: from the two atom positions of a bond it derives
    the bond length, the horizontal run and the two angles, and chooses the
    transform steps that lay the canonical bond primitive along the bond. */
module BondGeometry {
  import opened Molecule

  /** Steps whose magnitude is below this are left out. */
  const Epsilon: real := 0.0001

  const Pi: real := 3.1415926535897932384626433

  function Abs(x: real): (r: real)
    ensures r >= 0.0 && (r == x || r == -x)
  {
    if x < 0.0 then -x else x
  }

  function Square(x: real): (r: real)
    ensures r >= 0.0
  {
    x * x
  }

  /** Radians to degrees. */
  function Rad2Deg(r: real): real {
    180.0 * r / Pi
  }

  /** The square root and inverse cosine of the C library, left abstract. */
  datatype Numerics = Numerics(sqrt: real -> real, acos: real -> real)

  /** A square root that is non-negative and monotone on non-negative inputs. */
  ghost predicate SqrtBehaves(num: Numerics) {
    && (forall a :: 0.0 <= a ==> 0.0 <= num.sqrt(a))
    && (forall a, b :: 0.0 <= a <= b ==> num.sqrt(a) <= num.sqrt(b))
  }

  /** Bond length, run in the X-Z plane, angle to +Y and angle of the run to +X. */
  datatype Frame = Frame(dist: real, run: real, phi: real, theta: real)

  /** The frame of the bond from `p1` to `p2`. An angle whose divisor is
      shorter than Epsilon is forced to zero. */
  function BondFrame(num: Numerics, p1: Vec3, p2: Vec3): (f: Frame)
    ensures Abs(f.dist) < Epsilon ==> f.phi == 0.0
    ensures Abs(f.run) < Epsilon ==> f.theta == 0.0
  {
    var dist := num.sqrt(Square(p2.x - p1.x) + Square(p2.y - p1.y) + Square(p2.z - p1.z));
    var run := num.sqrt(Square(p2.x - p1.x) + Square(p2.z - p1.z));
    var phi := if Abs(dist) >= Epsilon then num.acos((p2.y - p1.y) / dist) else 0.0;
    var theta := if Abs(run) >= Epsilon then num.acos((p2.x - p1.x) / run) else 0.0;
    Frame(dist, run, phi, theta)
  }

  /** A coordinate-free bond (shorter than Epsilon) also has a run shorter than
      Epsilon, when the square root behaves. */
  lemma ShortBondHasShortRun(num: Numerics, p1: Vec3, p2: Vec3)
    requires SqrtBehaves(num)
    requires Abs(BondFrame(num, p1, p2).dist) < Epsilon
    ensures Abs(BondFrame(num, p1, p2).run) < Epsilon
  {
    var horizontal := Square(p2.x - p1.x) + Square(p2.z - p1.z);
    var full := horizontal + Square(p2.y - p1.y);
    assert Square(p2.x - p1.x) + Square(p2.y - p1.y) + Square(p2.z - p1.z) == full;
    assert 0.0 <= horizontal <= full;
    assert num.sqrt(horizontal) <= num.sqrt(full);
    assert 0.0 <= num.sqrt(horizontal);
  }

  // ---------------------------------------------------------------------------
  // Transform steps
  // ---------------------------------------------------------------------------

  /** `scale <factor,1,1>`, `rotate <0,0,degrees>`, `rotate <0,degrees,0>`,
      `translate <target>`. */
  datatype Step =
    | Scale(factor: real)
    | RotateZ(degrees: real)
    | RotateY(degrees: real)
    | Translate(target: string)

  /** `a` is an ordered subsequence of `b`. */
  predicate Subsequence(a: seq<Step>, b: seq<Step>)
    decreases |b|
  {
    |a| == 0 || (|b| > 0 && if a[0] == b[0] then Subsequence(a[1..], b[1..]) else Subsequence(a, b[1..]))
  }

  /** Z-rotation of a full bond or of the first half bond. */
  function ZAngle(f: Frame): real {
    Rad2Deg(-f.phi) + 90.0
  }

  /** Y-rotation: negative when the end atom is not behind the begin atom
      (`dz >= 0`), positive otherwise. */
  function YAngle(f: Frame, dz: real): real {
    if dz >= 0.0 then Rad2Deg(-1.0 * f.theta) else Rad2Deg(f.theta)
  }

  function StepIf(emit: bool, s: Step): seq<Step> {
    if emit then [s] else []
  }

  /** Scale, Z-rotation, Y-rotation, translate, in that order, each of the
      first three emitted only when its guard holds. */
  function Placement(scale: (bool, real), rotZ: (bool, real), rotY: (bool, real), target: string): (r: seq<Step>)
    ensures |r| >= 1 && r[|r| - 1] == Translate(target)
  {
    StepIf(scale.0, Scale(scale.1)) + StepIf(rotZ.0, RotateZ(rotZ.1)) + StepIf(rotY.0, RotateY(rotY.1))
    + [Translate(target)]
  }

  /** The placement is the canonical sequence with the unguarded steps left
      out: translate last and only there, each other step present exactly
      when its guard holds, with its given value. */
  lemma PlacementShape(scale: (bool, real), rotZ: (bool, real), rotY: (bool, real), target: string)
    ensures var r := Placement(scale, rotZ, rotY, target);
      && (forall k :: 0 <= k < |r| - 1 ==> !r[k].Translate?)
      && ((exists k :: 0 <= k < |r| && r[k].Scale?) <==> scale.0)
      && ((exists k :: 0 <= k < |r| && r[k].RotateZ?) <==> rotZ.0)
      && ((exists k :: 0 <= k < |r| && r[k].RotateY?) <==> rotY.0)
      && (forall k :: 0 <= k < |r| && r[k].Scale? ==> r[k].factor == scale.1)
      && (forall k :: 0 <= k < |r| && r[k].RotateZ? ==> r[k].degrees == rotZ.1)
      && (forall k :: 0 <= k < |r| && r[k].RotateY? ==> r[k].degrees == rotY.1)
      && Subsequence(r, [Scale(scale.1), RotateZ(rotZ.1), RotateY(rotY.1), Translate(target)])
  {
    var s1 := StepIf(scale.0, Scale(scale.1));
    var s2 := StepIf(rotZ.0, RotateZ(rotZ.1));
    var s3 := StepIf(rotY.0, RotateY(rotY.1));
    var r := Placement(scale, rotZ, rotY, target);
    assert r == s1 + s2 + s3 + [Translate(target)];
    PlacementOrdered(s1, s2, s3, scale.1, rotZ.1, rotY.1, target);
    assert scale.0 ==> r[0] == Scale(scale.1);
    assert rotZ.0 ==> r[|s1|] == RotateZ(rotZ.1);
    assert rotY.0 ==> r[|s1| + |s2|] == RotateY(rotY.1);
  }

  lemma PlacementOrdered(s1: seq<Step>, s2: seq<Step>, s3: seq<Step>, a: real, b: real, c: real, t: string)
    requires s1 == [] || s1 == [Scale(a)]
    requires s2 == [] || s2 == [RotateZ(b)]
    requires s3 == [] || s3 == [RotateY(c)]
    ensures Subsequence(s1 + s2 + s3 + [Translate(t)], [Scale(a), RotateZ(b), RotateY(c), Translate(t)])
  {
    var full := [Scale(a), RotateZ(b), RotateY(c), Translate(t)];
    var tail3 := s3 + [Translate(t)];
    assert Subsequence(tail3, full[2..]) by {
      assert Subsequence([Translate(t)], [Translate(t)]);
      assert Subsequence([Translate(t)], full[3..]);
    }
    var tail2 := s2 + tail3;
    assert Subsequence(tail2, full[1..]) by {
      if s2 == [] {
        assert tail2 == tail3;
        assert tail3[0] != full[1];
      } else {
        assert tail2[1..] == tail3;
      }
    }
    var all := s1 + tail2;
    assert Subsequence(all, full) by {
      if s1 == [] {
        assert all == tail2;
        assert tail2[0] != full[0];
      } else {
        assert all[1..] == tail2;
      }
    }
    assert s1 + s2 + s3 + [Translate(t)] == all;
  }

  /** Steps of a ball-and-stick bond: scaled to the full length, translated to
      the begin atom's position `target`. */
  function StickSteps(f: Frame, dz: real, target: string): (r: seq<Step>)
    ensures |r| >= 1 && r[|r| - 1] == Translate(target)
  {
    Placement((Abs(f.dist) >= Epsilon, f.dist),
              (Abs(ZAngle(f)) >= Epsilon, ZAngle(f)),
              (f.theta >= Epsilon, YAngle(f, dz)),
              target)
  }

  /** A ball-and-stick bond's steps: an ordered subsequence of scale by the
      length, Z-rotation, Y-rotation and translate to the begin atom; the
      translate always last; the scale exactly when the length is at least
      Epsilon; the Z-rotation exactly when its angle is; the Y-rotation, with
      its sign chosen by `dz`, exactly when theta is at least Epsilon. */
  lemma StickStepsShape(f: Frame, dz: real, target: string)
    ensures var r := StickSteps(f, dz, target);
      && (forall k :: 0 <= k < |r| - 1 ==> !r[k].Translate?)
      && ((exists k :: 0 <= k < |r| && r[k].Scale?) <==> Abs(f.dist) >= Epsilon)
      && ((exists k :: 0 <= k < |r| && r[k].RotateZ?) <==> Abs(ZAngle(f)) >= Epsilon)
      && ((exists k :: 0 <= k < |r| && r[k].RotateY?) <==> f.theta >= Epsilon)
      && (forall k :: 0 <= k < |r| && r[k].Scale? ==> r[k].factor == f.dist)
      && (forall k :: 0 <= k < |r| && r[k].RotateZ? ==> r[k].degrees == ZAngle(f))
      && (forall k :: 0 <= k < |r| && r[k].RotateY? ==>
            r[k].degrees == if dz >= 0.0 then Rad2Deg(-1.0 * f.theta) else Rad2Deg(f.theta))
      && Subsequence(r, [Scale(f.dist), RotateZ(ZAngle(f)), RotateY(YAngle(f, dz)), Translate(target)])
  {
    PlacementShape((Abs(f.dist) >= Epsilon, f.dist),
                   (Abs(ZAngle(f)) >= Epsilon, ZAngle(f)),
                   (f.theta >= Epsilon, YAngle(f, dz)),
                   target);
  }

  /** A bond shorter than Epsilon gets no scale and no Y-rotation, but a
      Z-rotation of exactly 90 degrees, since its phi is forced to zero. */
  lemma ZeroLengthStick(num: Numerics, p1: Vec3, p2: Vec3, target: string)
    requires SqrtBehaves(num)
    requires Abs(BondFrame(num, p1, p2).dist) < Epsilon
    ensures StickSteps(BondFrame(num, p1, p2), p2.z - p1.z, target) == [RotateZ(90.0), Translate(target)]
  {
    var f := BondFrame(num, p1, p2);
    ShortBondHasShortRun(num, p1, p2);
    assert f.phi == 0.0 && f.theta == 0.0;
    assert ZAngle(f) == 90.0;
  }

  /** The two halves of a capped-stick bond, first translated to
      `beginTarget`, second to `endTarget`. */
  function HalfSteps(f: Frame, dz: real, beginTarget: string, endTarget: string): (r: (seq<Step>, seq<Step>))
    ensures |r.0| >= 1 && r.0[|r.0| - 1] == Translate(beginTarget)
    ensures |r.1| >= 1 && r.1[|r.1| - 1] == Translate(endTarget)
  {
    (FirstHalf(f, dz, beginTarget), SecondHalf(f, dz, endTarget))
  }

  /** Each half is scaled by half the length, when twice the length is at
      least Epsilon. */
  function HalfScale(f: Frame): (bool, real) {
    (Abs(2.0 * f.dist) >= Epsilon, 0.5 * f.dist)
  }

  function FirstHalf(f: Frame, dz: real, beginTarget: string): (r: seq<Step>)
    ensures |r| >= 1 && r[|r| - 1] == Translate(beginTarget)
  {
    Placement(HalfScale(f), (Abs(ZAngle(f)) >= Epsilon, ZAngle(f)), (f.theta >= Epsilon, YAngle(f, dz)), beginTarget)
  }

  function SecondHalf(f: Frame, dz: real, endTarget: string): (r: seq<Step>)
    ensures |r| >= 1 && r[|r| - 1] == Translate(endTarget)
  {
    Placement(HalfScale(f),
              (Abs(Rad2Deg(-f.phi) + 270.0) >= Epsilon, (Rad2Deg(-f.phi) + 90.0) + 180.0),
              (Abs(f.theta) >= Epsilon, YAngle(f, dz)),
              endTarget)
  }

  /** The first half: an ordered subsequence of scale by half the length,
      Z-rotation, Y-rotation and translate to the begin atom; scaled exactly
      when twice the length is at least Epsilon, Z-rotated exactly when the
      angle is, Y-rotated exactly when theta is at least Epsilon. */
  lemma FirstHalfShape(f: Frame, dz: real, beginTarget: string, endTarget: string)
    ensures var r := HalfSteps(f, dz, beginTarget, endTarget).0;
      && ((exists k :: 0 <= k < |r| && r[k].Scale?) <==> Abs(2.0 * f.dist) >= Epsilon)
      && (forall k :: 0 <= k < |r| && r[k].Scale? ==> r[k].factor == 0.5 * f.dist)
      && ((exists k :: 0 <= k < |r| && r[k].RotateZ?) <==> Abs(ZAngle(f)) >= Epsilon)
      && ((exists k :: 0 <= k < |r| && r[k].RotateY?) <==> f.theta >= Epsilon)
      && Subsequence(r, [Scale(0.5 * f.dist), RotateZ(ZAngle(f)), RotateY(YAngle(f, dz)), Translate(beginTarget)])
  {
    PlacementShape(HalfScale(f), (Abs(ZAngle(f)) >= Epsilon, ZAngle(f)), (f.theta >= Epsilon, YAngle(f, dz)), beginTarget);
  }

  /** The second half: the same with the Z-angle shifted by 180 degrees (its
      guard testing the shifted angle), the Y guard `|theta| >= Epsilon`, and
      the translate to the end atom. */
  lemma SecondHalfShape(f: Frame, dz: real, beginTarget: string, endTarget: string)
    ensures var r := HalfSteps(f, dz, beginTarget, endTarget).1;
      && ((exists k :: 0 <= k < |r| && r[k].Scale?) <==> Abs(2.0 * f.dist) >= Epsilon)
      && (forall k :: 0 <= k < |r| && r[k].Scale? ==> r[k].factor == 0.5 * f.dist)
      && ((exists k :: 0 <= k < |r| && r[k].RotateZ?) <==> Abs(ZAngle(f) + 180.0) >= Epsilon)
      && (forall k :: 0 <= k < |r| && r[k].RotateZ? ==> r[k].degrees == ZAngle(f) + 180.0)
      && ((exists k :: 0 <= k < |r| && r[k].RotateY?) <==> Abs(f.theta) >= Epsilon)
      && Subsequence(r, [Scale(0.5 * f.dist), RotateZ(ZAngle(f) + 180.0), RotateY(YAngle(f, dz)), Translate(endTarget)])
  {
    assert Rad2Deg(-f.phi) + 270.0 == (Rad2Deg(-f.phi) + 90.0) + 180.0 == ZAngle(f) + 180.0;
    PlacementShape(HalfScale(f),
                   (Abs(Rad2Deg(-f.phi) + 270.0) >= Epsilon, (Rad2Deg(-f.phi) + 90.0) + 180.0),
                   (Abs(f.theta) >= Epsilon, YAngle(f, dz)), endTarget);
  }

  /** The two halves' scales, when present, add up to the full length. */
  lemma HalfScalesAddUp(f: Frame, dz: real, beginTarget: string, endTarget: string)
    ensures var r := HalfSteps(f, dz, beginTarget, endTarget);
      forall i, j :: 0 <= i < |r.0| && 0 <= j < |r.1| && r.0[i].Scale? && r.1[j].Scale? ==>
        r.0[i].factor + r.1[j].factor == f.dist
  {
    FirstHalfShape(f, dz, beginTarget, endTarget);
    SecondHalfShape(f, dz, beginTarget, endTarget);
  }

  /** Since inverse cosines are never negative, both halves agree on whether
      they are turned about Y. */
  lemma HalvesShareYRotation(f: Frame, dz: real, beginTarget: string, endTarget: string)
    requires f.theta >= 0.0
    ensures var r := HalfSteps(f, dz, beginTarget, endTarget);
      (exists k :: 0 <= k < |r.0| && r.0[k].RotateY?) <==> (exists k :: 0 <= k < |r.1| && r.1[k].RotateY?)
  {
    FirstHalfShape(f, dz, beginTarget, endTarget);
    SecondHalfShape(f, dz, beginTarget, endTarget);
  }

  /** A bond shorter than Epsilon/2, so that twice its length is below
      Epsilon, gives halves that keep only their Z-rotation: 90 degrees for the
      first half and 270 for the second. */
  lemma ZeroLengthHalves(num: Numerics, p1: Vec3, p2: Vec3, beginTarget: string, endTarget: string)
    requires SqrtBehaves(num)
    requires Abs(BondFrame(num, p1, p2).dist) < Epsilon / 2.0
    ensures var r := HalfSteps(BondFrame(num, p1, p2), p2.z - p1.z, beginTarget, endTarget);
      r.0 == [RotateZ(90.0), Translate(beginTarget)] && r.1 == [RotateZ(270.0), Translate(endTarget)]
  {
    var f := BondFrame(num, p1, p2);
    ShortBondHasShortRun(num, p1, p2);
    assert f.phi == 0.0 && f.theta == 0.0;
    assert ZAngle(f) == 90.0;
  }
}

=== FILE: molecule.dfy ===
/** The molecule record both formats work on: atoms with Cartesian positions
    (1-based, in insertion order), bonds that name their two atoms by index,
    and an optional title (None stands for a null title pointer). */
module Molecule {
  import opened Wrappers

  datatype Vec3 = Vec3(x: real, y: real, z: real)

  /** An atom: its position and its atomic number. */
  datatype Atom = Atom(pos: Vec3, atomicNum: int)

  /** A bond from atom `begin` to atom `end` (1-based indices) with its bond order. */
  datatype Bond = Bond(begin: int, end: int, order: int)

  datatype Mol = Mol(title: Option<string>, atoms: seq<Atom>, bonds: seq<Bond>)

  /** The periodic table lookups, which live outside the formats:
      symbol of an atomic number, and atomic number of a symbol. */
  datatype ElementTable = ElementTable(symbol: int -> string, atomicNum: string -> int)

  predicate ValidAtomIndex(mol: Mol, i: int) {
    1 <= i <= |mol.atoms|
  }

  /** Every bond names two atoms of the molecule. */
  predicate BondsReferenceAtoms(mol: Mol) {
    forall k :: 0 <= k < |mol.bonds| ==>
      ValidAtomIndex(mol, mol.bonds[k].begin) && ValidAtomIndex(mol, mol.bonds[k].end)
  }

  /** Atom number `i` (1-based). */
  function AtomAt(mol: Mol, i: int): Atom
    requires ValidAtomIndex(mol, i)
  {
    mol.atoms[i - 1]
  }
}

=== FILE: prefix.dfy ===
/** The identifier prefix of a molecule: derived from its title, then made
    distinct across the molecules written to one stream by a counter. */
module Prefix {
  import opened Wrappers
  import opened Text

  /** Title used when the molecule has none. */
  const UnknownTitle: string := "Unknown"

  /** Prefix used when nothing follows the last '/'. */
  const InvalidPrefix: string := "InValid"

  /** The part of `s` after its last '/', or all of `s` when it has none. */
  function AfterLastSlash(s: string): (r: string)
    ensures '/' !in r
    ensures |r| <= |s| && r == s[|s| - |r|..]
    ensures |r| < |s| ==> s[|s| - |r| - 1] == '/'
    decreases |s|
  {
    if |s| == 0 || s[|s| - 1] == '/' then ""
    else AfterLastSlash(s[..|s| - 1]) + [s[|s| - 1]]
  }

  /** Spaces and tabs become underscores; every other character is kept. */
  function Underscored(c: char): char {
    if c == ' ' || c == '\t' then '_' else c
  }

  /** The part of `s` before its first '.', with spaces and tabs underscored. */
  function CutAtDot(s: string): (r: string)
    ensures |r| <= |s|
    ensures |r| == |s| || s[|r|] == '.'
    ensures forall i :: 0 <= i < |r| ==> s[i] != '.' && r[i] == Underscored(s[i])
    decreases |s|
  {
    if |s| == 0 || s[0] == '.' then "" else [Underscored(s[0])] + CutAtDot(s[1..])
  }

  /** No path separator, dot, space or tab. */
  predicate Clean(p: string) {
    '/' !in p && '.' !in p && ' ' !in p && '\t' !in p
  }

  /** The prefix of a (NUL-free, C string) title: the dot-free start of the
      segment after the last '/', with spaces and tabs as underscores, or
      "InValid" when that segment is empty (see MakePrefixShape). */
  function MakePrefix(title: string): string {
    var seg := AfterLastSlash(title);
    if |seg| == 0 then InvalidPrefix else CutAtDot(seg)
  }

  /** The prefix is clean, and it is "InValid" for an empty segment and
      otherwise the longest dot-free start of the segment, underscored. */
  lemma MakePrefixShape(title: string)
    requires '\0' !in title
    ensures var r := MakePrefix(title);
      && Clean(r) && '\0' !in r
      && (AfterLastSlash(title) == "" ==> r == InvalidPrefix)
      && (AfterLastSlash(title) != "" ==>
            var seg := AfterLastSlash(title);
            && |r| <= |seg|
            && (|r| == |seg| || seg[|r|] == '.')
            && forall i :: 0 <= i < |r| ==> seg[i] != '.' && r[i] == Underscored(seg[i]))
  {
    var seg := AfterLastSlash(title);
    if |seg| == 0 {
      InvalidPrefixClean();
    } else {
      assert '\0' !in seg by {
        assert forall c :: c in seg ==> c in title;
      }
      CutAtDotClean(seg);
    }
  }

  lemma InvalidPrefixClean()
    ensures Clean(InvalidPrefix) && '\0' !in InvalidPrefix
  {
    var s := InvalidPrefix;
    assert |s| == 7;
    assert forall i :: 0 <= i < 7 ==>
      s[i] != '/' && s[i] != '.' && s[i] != ' ' && s[i] != '\t' && s[i] != '\0';
  }

  /** Cutting a slash-free segment leaves no separator, dot, space or tab. */
  lemma CutAtDotClean(seg: string)
    requires '/' !in seg && '\0' !in seg
    ensures Clean(CutAtDot(seg)) && '\0' !in CutAtDot(seg)
  {
    var r := CutAtDot(seg);
    forall i | 0 <= i < |r|
      ensures r[i] != '/' && r[i] != '.' && r[i] != ' ' && r[i] != '\t' && r[i] != '\0'
    {
      assert seg[i] in seg;
    }
  }

  lemma {:induction false} AfterLastSlashOfSlashFree(s: string)
    requires '/' !in s
    ensures AfterLastSlash(s) == s
    decreases |s|
  {
    if |s| > 0 {
      assert s[|s| - 1] in s;
      assert '/' !in s[..|s| - 1] by {
        assert forall c :: c in s[..|s| - 1] ==> c in s;
      }
      AfterLastSlashOfSlashFree(s[..|s| - 1]);
      assert s[..|s| - 1] + [s[|s| - 1]] == s;
    }
  }

  lemma {:induction false} CutAtDotOfClean(s: string)
    requires Clean(s)
    ensures CutAtDot(s) == s
    decreases |s|
  {
    if |s| > 0 {
      assert Clean(s[1..]) by {
        assert forall c :: c in s[1..] ==> c in s;
      }
      assert s[0] in s;
      CutAtDotOfClean(s[1..]);
      assert [s[0]] + s[1..] == s;
    }
  }

  /** Applying MakePrefix to a non-empty prefix gives it back. */
  lemma MakePrefixIdempotent(title: string)
    requires '\0' !in title
    requires MakePrefix(title) != ""
    ensures '\0' !in MakePrefix(title)
    ensures MakePrefix(MakePrefix(title)) == MakePrefix(title)
  {
    var p := MakePrefix(title);
    MakePrefixShape(title);
    AfterLastSlashOfSlashFree(p);
    CutAtDotOfClean(p);
  }

  /** The prefix is empty exactly when the segment after the last '/' starts
      with a dot. */
  lemma MakePrefixEmpty(title: string)
    requires '\0' !in title
    ensures MakePrefix(title) == "" <==>
      (var seg := AfterLastSlash(title); |seg| > 0 && seg[0] == '.')
  {
  }

  /** "InValid" comes out exactly when the segment is empty or is itself cut
      to "InValid". */
  lemma MakePrefixInvalid(title: string)
    requires '\0' !in title
    ensures MakePrefix(title) == InvalidPrefix <==>
      (var seg := AfterLastSlash(title); seg == "" || CutAtDot(seg) == InvalidPrefix)
  {
  }

  // ---------------------------------------------------------------------------
  // The molecule counter
  // ---------------------------------------------------------------------------

  /** The static molecule counter of the writer, made explicit. */
  datatype Counter = Counter(written: nat)

  /** The prefix before disambiguation: from the title's C-string view, or
      from "Unknown" for a null title. */
  function BasePrefix(title: Option<string>): string {
    MakePrefix(CString(title.GetOr(UnknownTitle)))
  }

  lemma BasePrefixClean(title: Option<string>)
    ensures Clean(BasePrefix(title))
  {
    MakePrefixShape(CString(title.GetOr(UnknownTitle)));
  }

  /** The prefix of the molecule written when the counter is `c`: the bare
      base for the first one, the base followed by the counter's decimal
      text afterwards. */
  function MoleculePrefix(title: Option<string>, c: Counter): string {
    var base := BasePrefix(title);
    if c.written == 0 then base else base + NatText(c.written)
  }

  /** The first molecule gets the bare base; every later one the base
      followed by the counter's decimal text. */
  lemma MoleculePrefixShape(title: Option<string>, c: Counter)
    ensures var r := MoleculePrefix(title, c);
      && (c.written == 0 ==> r == BasePrefix(title))
      && (c.written > 0 ==>
            |r| > |BasePrefix(title)| && r[..|BasePrefix(title)|] == BasePrefix(title)
            && r[|BasePrefix(title)|..] == NatText(c.written))
  {
  }

  /** One title written under two different counter values gets two
      different prefixes. */
  lemma SameTitleDistinctPrefixes(title: Option<string>, a: Counter, b: Counter)
    requires a != b
    ensures MoleculePrefix(title, a) != MoleculePrefix(title, b)
  {
    var base := BasePrefix(title);
    var pa := MoleculePrefix(title, a);
    var pb := MoleculePrefix(title, b);
    MoleculePrefixShape(title, a);
    MoleculePrefixShape(title, b);
    if a.written > 0 && b.written > 0 && pa == pb {
      assert NatText(a.written) == pa[|base|..] == pb[|base|..] == NatText(b.written);
      NatTextInjective(a.written, b.written);
    }
  }

  /** Different titles are not kept apart by the suffix: "A1" written first
      and "A" written second both get the prefix "A1". */
  lemma DifferentTitlesCanCollide()
    ensures MoleculePrefix(Some("A1"), Counter(0)) == MoleculePrefix(Some("A"), Counter(1))
  {
    var a1: string := ['A', '1'];
    var a: string := ['A'];
    assert a1 == "A1" && a == "A";
    assert CString(a1) == a1 && CString(a) == a;
    assert Clean(a1) && Clean(a);
    AfterLastSlashOfSlashFree(a1);
    AfterLastSlashOfSlashFree(a);
    CutAtDotOfClean(a1);
    CutAtDotOfClean(a);
    assert MakePrefix(a1) == a1;
    assert MakePrefix(a) == a;
    assert NatText(1) == ['1'];
    assert a + NatText(1) == a1;
  }

  /** The prefix with the counter always appended after an underscore,
      the first molecule included: the title part and the counter can then
      be told apart, so prefixes repeat only for a repeated base and
      counter (IntendedPrefixInjective), where the prefix as written lets
      "A1" first and "A" second collide (DifferentTitlesCanCollide). */
  function MoleculePrefixIntended(title: Option<string>, c: Counter): string {
    BasePrefix(title) + "_" + NatText(c.written)
  }

  /** Two prefixes built by the corrected rule are equal only for equal
      bases and equal counters. */
  lemma IntendedPrefixInjective(t1: Option<string>, t2: Option<string>, a: Counter, b: Counter)
    ensures MoleculePrefixIntended(t1, a) == MoleculePrefixIntended(t2, b) <==>
      BasePrefix(t1) == BasePrefix(t2) && a == b
  {
    if MoleculePrefixIntended(t1, a) == MoleculePrefixIntended(t2, b) {
      DigitSuffixSplit(BasePrefix(t1), NatText(a.written), BasePrefix(t2), NatText(b.written));
      NatTextInjective(a.written, b.written);
    }
  }

  /** In a stream written with the corrected rule, molecules whose titles
      give different bases never share a prefix. */
  lemma IntendedPrefixesSeparateTitles(t1: Option<string>, t2: Option<string>, a: Counter, b: Counter)
    requires BasePrefix(t1) != BasePrefix(t2)
    ensures MoleculePrefixIntended(t1, a) != MoleculePrefixIntended(t2, b)
  {
    IntendedPrefixInjective(t1, t2, a, b);
  }

  /** A string ending in an underscore and a run of digits splits there in
      one way only. */
  lemma DigitSuffixSplit(p1: string, d1: string, p2: string, d2: string)
    requires AllDigits(d1) && AllDigits(d2)
    requires p1 + "_" + d1 == p2 + "_" + d2
    ensures p1 == p2 && d1 == d2
  {
    var x := p1 + "_" + d1;
    assert x[|x| - |d1| - 1] == '_';
    assert x[|x| - |d2| - 1] == '_';
    assert |d1| == |d2|;
    assert d1 == x[|x| - |d1|..] == d2;
    assert p1 == x[..|p1|] == p2;
  }
}

=== FILE: scene.dfy ===
/** The POV-Ray scene writer: the declarations it emits for one molecule, in
    order, with the molecule counter threaded through as explicit state. */
module PovrayScene {
  import opened Wrappers
  import opened Text
  import opened Molecule
  import opened Prefix
  import opened BondGeometry
  import opened BoundingBox

  /** What the writer consults but does not own: the numerics, the element
      symbols, and the atom typer's type of each atom (by 1-based index). */
  datatype Env = Env(num: Numerics, table: ElementTable, typeOf: int -> string)

  /** Where a bond primitive is laid: from the begin atom's coordinates to the
      end atom's, with the names of the two position declarations the
      primitive (or its halves) are translated to. */
  datatype Span = Span(begin: Vec3, end: Vec3, beginAt: string, endAt: string)

  /** The renderer-side conditions the text is guarded by:
      `#if (BAS)`, `#if (CST)` and `#if (BAS | CST)`. */
  datatype Guard = BallAndStick | CappedSticks | BondedStyles

  datatype Decl =
    | Header(title: Option<string>, spacefillWarning: bool)
    | Position(name: string, at: Vec3)
    | AtomObject(name: string, element: string, placedAt: string)
    | StickBond(name: string, order: int, span: Span)
    | CappedBond(name: string, order: int, beginColor: string, endColor: string, span: Span)
    | Guarded(guard: Guard, body: seq<Decl>)
    | AtomsUnion(name: string, members: seq<string>)
    | BondsUnion(name: string, members: seq<string>)
    | WithBonds(name: string, atoms: string, bonds: string, bound: Box)
    | NoBonds(name: string, atoms: string)
    | CenterVector(name: string, at: Vec3)

  // ---------------------------------------------------------------------------
  // Names
  // ---------------------------------------------------------------------------

  function PosName(prefix: string, i: nat): string {
    prefix + "_pos_" + NatText(i)
  }

  function AtomName(prefix: string, i: nat): string {
    prefix + "_atom" + NatText(i)
  }

  function BondName(prefix: string, i: nat): string {
    prefix + "_bond" + NatText(i)
  }

  function AtomsName(prefix: string): string {
    prefix + "_atoms"
  }

  function BondsName(prefix: string): string {
    prefix + "_bonds"
  }

  lemma SuffixInjective(prefix: string, role: string, i: nat, j: nat)
    requires prefix + role + NatText(i) == prefix + role + NatText(j)
    ensures i == j
  {
    var n := |prefix + role|;
    assert NatText(i) == (prefix + role + NatText(i))[n..];
    assert NatText(j) == (prefix + role + NatText(j))[n..];
    NatTextInjective(i, j);
  }

  /** Names of one role differ for different indices, and the roles never
      share a name. */
  lemma NamesDistinct(prefix: string, i: nat, j: nat)
    ensures PosName(prefix, i) == PosName(prefix, j) ==> i == j
    ensures AtomName(prefix, i) == AtomName(prefix, j) ==> i == j
    ensures BondName(prefix, i) == BondName(prefix, j) ==> i == j
    ensures PosName(prefix, i) != AtomName(prefix, j)
    ensures PosName(prefix, i) != BondName(prefix, j)
    ensures AtomName(prefix, i) != BondName(prefix, j)
    ensures AtomName(prefix, i) != AtomsName(prefix)
    ensures BondName(prefix, i) != BondsName(prefix)
  {
    if PosName(prefix, i) == PosName(prefix, j) { SuffixInjective(prefix, "_pos_", i, j); }
    if AtomName(prefix, i) == AtomName(prefix, j) { SuffixInjective(prefix, "_atom", i, j); }
    if BondName(prefix, i) == BondName(prefix, j) { SuffixInjective(prefix, "_bond", i, j); }
    var n := |prefix|;
    assert PosName(prefix, i)[n + 1] == 'p';
    assert AtomName(prefix, j)[n + 1] == 'a';
    assert BondName(prefix, j)[n + 1] == 'b';
    assert AtomName(prefix, i)[n + 1] == 'a';
    assert IsDigit(AtomName(prefix, i)[n + 5]) && AtomsName(prefix)[n + 5] == 's';
    assert IsDigit(BondName(prefix, i)[n + 5]) && BondsName(prefix)[n + 5] == 's';
  }

  // ---------------------------------------------------------------------------
  // Atoms
  // ---------------------------------------------------------------------------

  /** `_pos_<from>`, `_pos_<from + 1>`, ... for `atoms` in turn. */
  function PositionDecls(prefix: string, atoms: seq<Atom>, from: nat): (r: seq<Decl>)
    ensures |r| == |atoms|
    decreases |atoms|
  {
    if |atoms| == 0 then []
    else [Position(PosName(prefix, from), atoms[0].pos)] + PositionDecls(prefix, atoms[1..], from + 1)
  }

  lemma {:induction false} PositionDeclsAt(prefix: string, atoms: seq<Atom>, from: nat, k: nat)
    requires k < |atoms|
    ensures PositionDecls(prefix, atoms, from)[k] == Position(PosName(prefix, from + k), atoms[k].pos)
    decreases k
  {
    if k > 0 {
      PositionDeclsAt(prefix, atoms[1..], from + 1, k - 1);
    }
  }

  /** `_atom<from>`, `_atom<from + 1>`, ...: each atom's element primitive
      translated to the position declared for it. */
  function AtomDecls(prefix: string, atoms: seq<Atom>, from: nat, table: ElementTable): (r: seq<Decl>)
    ensures |r| == |atoms|
    decreases |atoms|
  {
    if |atoms| == 0 then []
    else
      [AtomObject(AtomName(prefix, from), table.symbol(atoms[0].atomicNum), PosName(prefix, from))]
      + AtomDecls(prefix, atoms[1..], from + 1, table)
  }

  lemma {:induction false} AtomDeclsAt(prefix: string, atoms: seq<Atom>, from: nat, table: ElementTable, k: nat)
    requires k < |atoms|
    ensures AtomDecls(prefix, atoms, from, table)[k]
      == AtomObject(AtomName(prefix, from + k), table.symbol(atoms[k].atomicNum), PosName(prefix, from + k))
    decreases k
  {
    if k > 0 {
      AtomDeclsAt(prefix, atoms[1..], from + 1, table, k - 1);
    }
  }

  /** All positions (atoms 1..N, in order), then all atom objects (1..N). */
  function OutputAtoms(prefix: string, mol: Mol, table: ElementTable): (r: seq<Decl>)
    ensures |r| == 2 * |mol.atoms|
  {
    PositionDecls(prefix, mol.atoms, 1) + AtomDecls(prefix, mol.atoms, 1, table)
  }

  /** Atom `i` gets the position `_pos_<i>` at its coordinates among the first
      N declarations, and the object `_atom<i>` of its element among the last
      N, placed at the position declared for it. */
  lemma OutputAtomsAt(prefix: string, mol: Mol, table: ElementTable, i: int)
    requires ValidAtomIndex(mol, i)
    ensures var r := OutputAtoms(prefix, mol, table);
      var n := |mol.atoms|;
      && r[i - 1] == Position(PosName(prefix, i), AtomAt(mol, i).pos)
      && r[n + i - 1] == AtomObject(AtomName(prefix, i), table.symbol(AtomAt(mol, i).atomicNum), PosName(prefix, i))
      && r[n + i - 1].placedAt == r[i - 1].name
  {
    PositionDeclsAt(prefix, mol.atoms, 1, i - 1);
    AtomDeclsAt(prefix, mol.atoms, 1, table, i - 1);
  }

  /** The atom block holds only positions and atom objects. */
  lemma OutputAtomsKinds(prefix: string, mol: Mol, table: ElementTable)
    ensures var r := OutputAtoms(prefix, mol, table);
      forall k :: 0 <= k < |r| ==> r[k].Position? || r[k].AtomObject?
  {
    var r := OutputAtoms(prefix, mol, table);
    var n := |mol.atoms|;
    forall k | 0 <= k < |r|
      ensures r[k].Position? || r[k].AtomObject?
    {
      if k < n {
        OutputAtomsAt(prefix, mol, table, k + 1);
      } else {
        OutputAtomsAt(prefix, mol, table, k - n + 1);
      }
    }
  }

  // ---------------------------------------------------------------------------
  // Bonds
  // ---------------------------------------------------------------------------

  /** The transform steps of a ball-and-stick primitive laid along `s`. */
  function StickPlacement(num: Numerics, s: Span): seq<Step> {
    StickSteps(BondFrame(num, s.begin, s.end), s.end.z - s.begin.z, s.beginAt)
  }

  /** The transform steps of the two halves of a capped-stick bond along `s`. */
  function CappedPlacement(num: Numerics, s: Span): (seq<Step>, seq<Step>) {
    HalfSteps(BondFrame(num, s.begin, s.end), s.end.z - s.begin.z, s.beginAt, s.endAt)
  }

  /** Where bond `k` is laid: between its two atoms' coordinates, towards the
      positions declared for them. */
  function BondSpan(prefix: string, mol: Mol, k: nat): (s: Span)
    requires BondsReferenceAtoms(mol) && k < |mol.bonds|
  {
    var b := mol.bonds[k];
    Span(AtomAt(mol, b.begin).pos, AtomAt(mol, b.end).pos, PosName(prefix, b.begin), PosName(prefix, b.end))
  }

  /** Ball-and-stick bond `k`: one full-length primitive of its order. */
  function StickDecl(prefix: string, mol: Mol, env: Env, k: nat): (d: Decl)
    requires BondsReferenceAtoms(mol) && k < |mol.bonds|
  {
    StickBond(BondName(prefix, k), mol.bonds[k].order, BondSpan(prefix, mol, k))
  }

  /** Capped-stick bond `k`: two halves of its order, each coloured by the type
      of its own atom. */
  function CappedDecl(prefix: string, mol: Mol, env: Env, k: nat): (d: Decl)
    requires BondsReferenceAtoms(mol) && k < |mol.bonds|
  {
    var b := mol.bonds[k];
    CappedBond(BondName(prefix, k), b.order, env.typeOf(b.begin), env.typeOf(b.end), BondSpan(prefix, mol, k))
  }

  /** A bond of either style is laid between its own two atoms, and its
      primitive (for capped sticks, each half) is translated to the position
      declared for the atom it starts from: the full stick and the first half
      to the begin atom's, the second half to the end atom's. */
  lemma BondsPlacedAtTheirAtoms(prefix: string, mol: Mol, env: Env, k: nat)
    requires BondsReferenceAtoms(mol) && k < |mol.bonds|
    ensures var b := mol.bonds[k];
      var atoms := OutputAtoms(prefix, mol, env.table);
      var stick := StickPlacement(env.num, StickDecl(prefix, mol, env, k).span);
      var halves := CappedPlacement(env.num, CappedDecl(prefix, mol, env, k).span);
      && StickDecl(prefix, mol, env, k).span.begin == AtomAt(mol, b.begin).pos
      && StickDecl(prefix, mol, env, k).span.end == AtomAt(mol, b.end).pos
      && atoms[b.begin - 1].Position? && atoms[b.end - 1].Position?
      && stick[|stick| - 1] == Translate(atoms[b.begin - 1].name)
      && halves.0[|halves.0| - 1] == Translate(atoms[b.begin - 1].name)
      && halves.1[|halves.1| - 1] == Translate(atoms[b.end - 1].name)
      && CappedDecl(prefix, mol, env, k).beginColor == env.typeOf(b.begin)
      && CappedDecl(prefix, mol, env, k).endColor == env.typeOf(b.end)
  {
    var b := mol.bonds[k];
    OutputAtomsAt(prefix, mol, env.table, b.begin);
    OutputAtomsAt(prefix, mol, env.table, b.end);
  }

  /** Ball-and-stick declarations for bonds `from` .. M-1. */
  function StickBonds(prefix: string, mol: Mol, env: Env, from: nat): (r: seq<Decl>)
    requires BondsReferenceAtoms(mol) && from <= |mol.bonds|
    ensures |r| == |mol.bonds| - from
    decreases |mol.bonds| - from
  {
    if from == |mol.bonds| then []
    else [StickDecl(prefix, mol, env, from)] + StickBonds(prefix, mol, env, from + 1)
  }

  lemma {:induction false} StickBondsAt(prefix: string, mol: Mol, env: Env, from: nat, k: nat)
    requires BondsReferenceAtoms(mol) && from <= k < |mol.bonds|
    ensures StickBonds(prefix, mol, env, from)[k - from] == StickDecl(prefix, mol, env, k)
    decreases k - from
  {
    if from < k {
      StickBondsAt(prefix, mol, env, from + 1, k);
    }
  }

  /** Capped-stick declarations for bonds `from` .. M-1. */
  function CappedBonds(prefix: string, mol: Mol, env: Env, from: nat): (r: seq<Decl>)
    requires BondsReferenceAtoms(mol) && from <= |mol.bonds|
    ensures |r| == |mol.bonds| - from
    decreases |mol.bonds| - from
  {
    if from == |mol.bonds| then []
    else [CappedDecl(prefix, mol, env, from)] + CappedBonds(prefix, mol, env, from + 1)
  }

  lemma {:induction false} CappedBondsAt(prefix: string, mol: Mol, env: Env, from: nat, k: nat)
    requires BondsReferenceAtoms(mol) && from <= k < |mol.bonds|
    ensures CappedBonds(prefix, mol, env, from)[k - from] == CappedDecl(prefix, mol, env, k)
    decreases k - from
  {
    if from < k {
      CappedBondsAt(prefix, mol, env, from + 1, k);
    }
  }

  /** Bond blocks: ball-and-stick bonds guarded by BAS, then capped-stick
      bonds guarded by CST, both only when the molecule has bonds. */
  function OutputBonds(prefix: string, mol: Mol, env: Env): (r: seq<Decl>)
    requires BondsReferenceAtoms(mol)
    ensures |mol.bonds| == 0 <==> r == []
    ensures |mol.bonds| > 0 ==>
      && |r| == 2
      && r[0].Guarded? && r[0].guard == BallAndStick
      && r[1].Guarded? && r[1].guard == CappedSticks
      && |r[0].body| == |r[1].body| == |mol.bonds|
  {
    if |mol.bonds| == 0 then []
    else [Guarded(BallAndStick, StickBonds(prefix, mol, env, 0)),
          Guarded(CappedSticks, CappedBonds(prefix, mol, env, 0))]
  }

  /** Bond `k` is declared in both styles, in bond order: the k-th
      ball-and-stick and the k-th capped-stick declaration are those of
      bond `k`. */
  lemma OutputBondsContents(prefix: string, mol: Mol, env: Env, k: nat)
    requires BondsReferenceAtoms(mol) && k < |mol.bonds|
    ensures var r := OutputBonds(prefix, mol, env);
      r[0].body[k] == StickDecl(prefix, mol, env, k) && r[1].body[k] == CappedDecl(prefix, mol, env, k)
  {
    StickBondsAt(prefix, mol, env, 0, k);
    CappedBondsAt(prefix, mol, env, 0, k);
  }

  // ---------------------------------------------------------------------------
  // Unions
  // ---------------------------------------------------------------------------

  /** `prefix + role + <from>`, `prefix + role + <from + 1>`, ... (`count` names). */
  function IndexedNames(prefix: string, role: string, from: nat, count: nat): (r: seq<string>)
    ensures |r| == count
    decreases count
  {
    if count == 0 then [] else [prefix + role + NatText(from)] + IndexedNames(prefix, role, from + 1, count - 1)
  }

  lemma {:induction false} IndexedNamesAt(prefix: string, role: string, from: nat, count: nat, k: nat)
    requires k < count
    ensures IndexedNames(prefix, role, from, count)[k] == prefix + role + NatText(from + k)
    decreases k
  {
    if k > 0 {
      IndexedNamesAt(prefix, role, from + 1, count - 1, k - 1);
    }
  }

  /** The union of atoms 1..N, then, only when there are bonds, the union of
      bonds 0..M-1 guarded by BAS | CST. */
  function OutputUnions(prefix: string, mol: Mol): (r: seq<Decl>)
    ensures |r| == if |mol.bonds| > 0 then 2 else 1
    ensures r[0].AtomsUnion? && r[0].name == AtomsName(prefix) && |r[0].members| == |mol.atoms|
    ensures |mol.bonds| > 0 ==>
      && r[1].Guarded? && r[1].guard == BondedStyles && |r[1].body| == 1
      && r[1].body[0].BondsUnion? && r[1].body[0].name == BondsName(prefix)
      && |r[1].body[0].members| == |mol.bonds|
  {
    [AtomsUnion(AtomsName(prefix), IndexedNames(prefix, "_atom", 1, |mol.atoms|))]
    + if |mol.bonds| > 0 then [Guarded(BondedStyles, [BondsUnion(BondsName(prefix), IndexedNames(prefix, "_bond", 0, |mol.bonds|))])]
      else []
  }

  /** The unions refer to exactly the objects the emitters declared: the
      atoms union lists the atom objects, and the bonds union lists the
      bonds, whose two styles share each name, each in declaration order. */
  lemma UnionsListDeclaredObjects(prefix: string, mol: Mol, env: Env)
    requires BondsReferenceAtoms(mol)
    ensures var objects := OutputAtoms(prefix, mol, env.table)[|mol.atoms|..];
      var unions := OutputUnions(prefix, mol);
      |objects| == |unions[0].members|
      && forall i :: 0 <= i < |objects| ==> objects[i].AtomObject? && unions[0].members[i] == objects[i].name
    ensures |mol.bonds| > 0 ==>
      var bonds := OutputBonds(prefix, mol, env);
      var unions := OutputUnions(prefix, mol);
      forall k :: 0 <= k < |mol.bonds| ==>
        && bonds[0].body[k].StickBond? && bonds[1].body[k].CappedBond?
        && unions[1].body[0].members[k] == bonds[0].body[k].name == bonds[1].body[k].name
  {
    var atoms := OutputAtoms(prefix, mol, env.table);
    var objects := atoms[|mol.atoms|..];
    var unions := OutputUnions(prefix, mol);
    assert unions[0] == AtomsUnion(AtomsName(prefix), IndexedNames(prefix, "_atom", 1, |mol.atoms|));
    forall i | 0 <= i < |objects|
      ensures objects[i].AtomObject? && unions[0].members[i] == objects[i].name
    {
      OutputAtomsAt(prefix, mol, env.table, i + 1);
      IndexedNamesAt(prefix, "_atom", 1, |mol.atoms|, i);
      assert objects[i] == atoms[|mol.atoms| + (i + 1) - 1];
    }
    if |mol.bonds| > 0 {
      var bonds := OutputBonds(prefix, mol, env);
      var names := IndexedNames(prefix, "_bond", 0, |mol.bonds|);
      assert unions[1] == Guarded(BondedStyles, [BondsUnion(BondsName(prefix), names)]);
      forall k | 0 <= k < |mol.bonds|
        ensures && bonds[0].body[k].StickBond? && bonds[1].body[k].CappedBond?
                && unions[1].body[0].members[k] == bonds[0].body[k].name == bonds[1].body[k].name
      {
        OutputBondsContents(prefix, mol, env, k);
        IndexedNamesAt(prefix, "_bond", 0, |mol.bonds|, k);
        assert StickDecl(prefix, mol, env, k).name == BondName(prefix, k) == CappedDecl(prefix, mol, env, k).name;
      }
    }
  }

  // ---------------------------------------------------------------------------
  // One molecule
  // ---------------------------------------------------------------------------

  /** The top-level object: atoms and bonds (with the padded bounding box as a
      comment) when there are bonds, the atoms alone otherwise. */
  function OutputMolecule(prefix: string, mol: Mol, box: Box): Decl {
    if |mol.bonds| > 0 then WithBonds(prefix, AtomsName(prefix), BondsName(prefix), Padded(box))
    else NoBonds(prefix, AtomsName(prefix))
  }

  /** The declarations for one molecule, the prefix they use, and the counter
      after it. */
  datatype Written = Written(prefix: string, decls: seq<Decl>, next: Counter)

  /** The file header, written only before the first molecule the process
      writes (counter zero): the counter is not reset between output files. */
  function HeaderFor(c: Counter, mol: Mol): seq<Decl> {
    if c.written == 0 then [Header(mol.title, |mol.bonds| == 0)] else []
  }

  /** Everything between the header and the molecule object: atoms, bond
      blocks, unions. */
  function MoleculeBody(prefix: string, mol: Mol, env: Env): seq<Decl>
    requires BondsReferenceAtoms(mol)
  {
    OutputAtoms(prefix, mol, env.table) + OutputBonds(prefix, mol, env) + OutputUnions(prefix, mol)
  }

  /** The molecule object and the vector that centres it. */
  function Ending(prefix: string, mol: Mol): seq<Decl> {
    var box := CalcBoundingBox(mol.atoms);
    [OutputMolecule(prefix, mol, box), CenterVector(prefix + "_center", Center(box))]
  }

  /** Writes one molecule under counter `c`: the file header for the first
      molecule only, the body, the molecule object and its centring vector,
      all under the prefix for `c`; the counter then moves on by one. */
  function WriteMolecule(c: Counter, mol: Mol, env: Env): (w: Written)
    requires BondsReferenceAtoms(mol)
    ensures w.next.written == c.written + 1
    ensures w.prefix == MoleculePrefix(mol.title, c)
  {
    var prefix := MoleculePrefix(mol.title, c);
    Written(prefix, HeaderFor(c, mol) + MoleculeBody(prefix, mol, env) + Ending(prefix, mol),
            Counter(c.written + 1))
  }

  /** No declaration is a header or a molecule object, and bond blocks appear
      only when `bonded`. */
  predicate PlainDecls(s: seq<Decl>, bonded: bool) {
    forall k :: 0 <= k < |s| ==>
      && !s[k].Header? && !s[k].NoBonds? && !s[k].WithBonds?
      && (s[k].Guarded? ==> bonded)
  }

  predicate HasGuarded(s: seq<Decl>) {
    exists k :: 0 <= k < |s| && s[k].Guarded?
  }

  predicate HasWithBonds(s: seq<Decl>) {
    exists k :: 0 <= k < |s| && s[k].WithBonds?
  }

  predicate HasNoBonds(s: seq<Decl>) {
    exists k :: 0 <= k < |s| && s[k].NoBonds?
  }

  /** `s` declares the atoms union `name`. */
  predicate DeclaresAtoms(s: seq<Decl>, name: string) {
    exists k :: 0 <= k < |s| && s[k].AtomsUnion? && s[k].name == name
  }

  /** `s` declares the bonds union `name`, alone under the bonded-styles
      guard. */
  predicate DeclaresBonds(s: seq<Decl>, name: string) {
    exists k :: 0 <= k < |s| && s[k].Guarded? && s[k].guard == BondedStyles
      && |s[k].body| == 1 && s[k].body[0].BondsUnion? && s[k].body[0].name == name
  }

  /** The body holds no header or molecule object; bond blocks (and the
      bonds union's guard) appear only when there are bonds, the first of
      them right after the atoms; both unions are declared. */
  lemma MoleculeBodyKinds(prefix: string, mol: Mol, env: Env)
    requires BondsReferenceAtoms(mol)
    ensures var body := MoleculeBody(prefix, mol, env);
      && PlainDecls(body, |mol.bonds| > 0)
      && (|mol.bonds| > 0 ==> |body| > 2 * |mol.atoms| && body[2 * |mol.atoms|].Guarded?)
      && DeclaresAtoms(body, AtomsName(prefix))
      && (|mol.bonds| > 0 ==> DeclaresBonds(body, BondsName(prefix)))
  {
    var atoms := OutputAtoms(prefix, mol, env.table);
    var bonds := OutputBonds(prefix, mol, env);
    var unions := OutputUnions(prefix, mol);
    var body := MoleculeBody(prefix, mol, env);
    assert body == atoms + bonds + unions;
    OutputAtomsKinds(prefix, mol, env.table);
    forall k | 0 <= k < |body|
      ensures && !body[k].Header? && !body[k].NoBonds? && !body[k].WithBonds?
              && (body[k].Guarded? ==> |mol.bonds| > 0)
    {
      if k < |atoms| {
        assert body[k] == atoms[k];
      } else if k < |atoms| + |bonds| {
        assert body[k] == bonds[k - |atoms|];
      } else {
        assert body[k] == unions[k - |atoms| - |bonds|];
      }
    }
    if |mol.bonds| > 0 {
      assert body[|atoms|] == bonds[0];
    }
    assert body[|atoms| + |bonds|] == unions[0];
    if |mol.bonds| > 0 {
      assert body[|atoms| + |bonds| + 1] == unions[1];
    }
  }

  /** A header part (empty, or one header) before a plain body and an ending
      without headers: a header comes first exactly when there is one, and
      nowhere else. */
  lemma AssembledHeader(header: seq<Decl>, body: seq<Decl>, ending: seq<Decl>, bonded: bool)
    requires header == [] || (|header| == 1 && header[0].Header?)
    requires PlainDecls(body, bonded)
    requires |ending| == 2 && !ending[0].Header? && !ending[1].Header?
    ensures var d := header + body + ending;
      && |d| >= 2
      && (d[0].Header? <==> header != [])
      && (header != [] ==> d[0] == header[0])
      && forall k :: 1 <= k < |d| ==> !d[k].Header?
  {
    var d := header + body + ending;
    forall k | 1 <= k < |d|
      ensures !d[k].Header?
    {
      if k < |header| + |body| {
        assert d[k] == body[k - |header|];
      } else {
        assert d[k] == ending[k - |header| - |body|];
      }
    }
    if header == [] && |body| > 0 {
      assert d[0] == body[0];
    }
  }

  /** Bond blocks and a bonded molecule object occur in the assembled
      declarations exactly when `bonded`, an atoms-only object exactly when
      not. */
  lemma AssembledBondBlocks(header: seq<Decl>, body: seq<Decl>, ending: seq<Decl>, bonded: bool)
    requires header == [] || (|header| == 1 && header[0].Header?)
    requires PlainDecls(body, bonded) && (bonded ==> HasGuarded(body))
    requires |ending| == 2 && ending[1].CenterVector?
    requires (ending[0].WithBonds? <==> bonded) && (ending[0].NoBonds? <==> !bonded)
    ensures var d := header + body + ending;
      && (HasGuarded(d) <==> bonded)
      && (HasWithBonds(d) <==> bonded)
      && (HasNoBonds(d) <==> !bonded)
  {
    var d := header + body + ending;
    forall k | 0 <= k < |d|
      ensures d[k].Guarded? ==> bonded
      ensures d[k].WithBonds? ==> bonded
      ensures d[k].NoBonds? ==> !bonded
    {
      if k < |header| {
        assert d[k] == header[k];
      } else if k < |header| + |body| {
        assert d[k] == body[k - |header|];
      } else {
        assert d[k] == ending[k - |header| - |body|];
      }
    }
    assert d[|header| + |body|] == ending[0];
    if bonded {
      var k :| 0 <= k < |body| && body[k].Guarded?;
      assert d[|header| + k] == body[k];
    }
  }

  /** The ending closes the assembled declarations, and whatever the body
      declares comes before it. */
  lemma AssembledEnding(header: seq<Decl>, body: seq<Decl>, ending: seq<Decl>, atoms: string, bonds: string)
    requires |ending| == 2
    ensures var d := header + body + ending;
      var m := |d| - 2;
      && m == |header| + |body|
      && d[m] == ending[0] && d[m + 1] == ending[1]
      && (DeclaresAtoms(body, atoms) ==> DeclaresAtoms(d[..m], atoms))
      && (DeclaresBonds(body, bonds) ==> DeclaresBonds(d[..m], bonds))
  {
    var d := header + body + ending;
    var m := |d| - 2;
    assert d[m] == ending[0] && d[m + 1] == ending[1];
    if DeclaresAtoms(body, atoms) {
      var k :| 0 <= k < |body| && body[k].AtomsUnion? && body[k].name == atoms;
      assert d[..m][|header| + k] == body[k];
    }
    if DeclaresBonds(body, bonds) {
      var k :| 0 <= k < |body| && body[k].Guarded? && body[k].guard == BondedStyles
        && |body[k].body| == 1 && body[k].body[0].BondsUnion? && body[k].body[0].name == bonds;
      assert d[..m][|header| + k] == body[k];
    }
  }

  /** The header comes first and only for the first molecule the process
      writes (counter zero), carrying the title and, exactly when the molecule has
      no bonds, the spacefill warning; no other declaration is a header. */
  lemma WriteMoleculeHeader(c: Counter, mol: Mol, env: Env)
    requires BondsReferenceAtoms(mol)
    ensures var w := WriteMolecule(c, mol, env);
      && |w.decls| >= 2
      && (w.decls[0].Header? <==> c.written == 0)
      && (c.written == 0 ==> w.decls[0].title == mol.title && (w.decls[0].spacefillWarning <==> |mol.bonds| == 0))
      && (forall k :: 1 <= k < |w.decls| ==> !w.decls[k].Header?)
  {
    var prefix := MoleculePrefix(mol.title, c);
    MoleculeBodyKinds(prefix, mol, env);
    AssembledHeader(HeaderFor(c, mol), MoleculeBody(prefix, mol, env), Ending(prefix, mol), |mol.bonds| > 0);
  }

  /** Bond blocks and the bonded molecule object are written exactly when
      the molecule has bonds, the atoms-only object exactly when it has
      none. */
  lemma WriteMoleculeBondBlocks(c: Counter, mol: Mol, env: Env)
    requires BondsReferenceAtoms(mol)
    ensures var w := WriteMolecule(c, mol, env);
      && (HasGuarded(w.decls) <==> |mol.bonds| > 0)
      && (HasWithBonds(w.decls) <==> |mol.bonds| > 0)
      && (HasNoBonds(w.decls) <==> |mol.bonds| == 0)
  {
    var prefix := MoleculePrefix(mol.title, c);
    var body := MoleculeBody(prefix, mol, env);
    MoleculeBodyKinds(prefix, mol, env);
    if |mol.bonds| > 0 {
      assert body[2 * |mol.atoms|].Guarded?;
    }
    AssembledBondBlocks(HeaderFor(c, mol), body, Ending(prefix, mol), |mol.bonds| > 0);
  }

  /** The molecule object comes second to last, under the prefix itself, and
      every object it names was declared before it: the atoms union always,
      the bonds union when there are bonds. The centring vector comes last and
      shifts the molecule's bounding box to be symmetric about the origin. */
  lemma WriteMoleculeEnding(c: Counter, mol: Mol, env: Env)
    requires BondsReferenceAtoms(mol)
    ensures var w := WriteMolecule(c, mol, env);
      var m := |w.decls| - 2;
      && |w.decls| >= 2
      && (w.decls[m].WithBonds? || w.decls[m].NoBonds?) && w.decls[m].name == w.prefix
      && DeclaresAtoms(w.decls[..m], w.decls[m].atoms)
      && (w.decls[m].WithBonds? ==> DeclaresBonds(w.decls[..m], w.decls[m].bonds))
      && (w.decls[m].WithBonds? ==> w.decls[m].bound == Padded(CalcBoundingBox(mol.atoms)))
      && w.decls[m + 1] == CenterVector(w.prefix + "_center", Center(CalcBoundingBox(mol.atoms)))
  {
    var prefix := MoleculePrefix(mol.title, c);
    MoleculeBodyKinds(prefix, mol, env);
    AssembledEnding(HeaderFor(c, mol), MoleculeBody(prefix, mol, env), Ending(prefix, mol),
                    AtomsName(prefix), BondsName(prefix));
  }

  // ---------------------------------------------------------------------------
  // Several molecules to one stream
  // ---------------------------------------------------------------------------

  /** Writes `mols` in order to one stream, starting from counter `c`: the
      i-th molecule is written under the counter value `c + i`
      (StreamThreadsCounter shows this is the counter its predecessor
      left). */
  function WriteAll(c: Counter, mols: seq<Mol>, env: Env): (ws: seq<Written>)
    requires forall i :: 0 <= i < |mols| ==> BondsReferenceAtoms(mols[i])
    ensures |ws| == |mols|
    ensures forall i :: 0 <= i < |mols| ==> ws[i] == WriteMolecule(Counter(c.written + i), mols[i], env)
  {
    seq(|mols|, i requires 0 <= i < |mols| => WriteMolecule(Counter(c.written + i), mols[i], env))
  }

  /** The writer depends on the counter only through its value. */
  lemma SameWrite(c1: Counter, c2: Counter, mol: Mol, env: Env)
    requires BondsReferenceAtoms(mol) && c1.written == c2.written
    ensures WriteMolecule(c1, mol, env) == WriteMolecule(c2, mol, env)
  {
  }

  /** The first molecule of the stream is written under `c` itself. */
  lemma StreamStartsAt(c: Counter, mols: seq<Mol>, env: Env)
    requires forall i :: 0 <= i < |mols| ==> BondsReferenceAtoms(mols[i])
    requires |mols| > 0
    ensures WriteAll(c, mols, env)[0] == WriteMolecule(c, mols[0], env)
  {
    SameWrite(Counter(c.written + 0), c, mols[0], env);
  }

  /** Every later molecule is written under the counter the previous write
      left behind. */
  lemma StreamThreadsCounter(c: Counter, mols: seq<Mol>, env: Env, i: nat)
    requires forall i :: 0 <= i < |mols| ==> BondsReferenceAtoms(mols[i])
    requires 0 < i < |mols|
    ensures var ws := WriteAll(c, mols, env);
      ws[i] == WriteMolecule(ws[i - 1].next, mols[i], env)
  {
    var ws := WriteAll(c, mols, env);
    WriteAllAt(c, mols, env, i - 1);
    WriteAllAt(c, mols, env, i);
    SameWrite(Counter(c.written + i), ws[i - 1].next, mols[i], env);
  }

  /** Molecule `i` of the stream is written under the counter value `c + i`. */
  lemma WriteAllAt(c: Counter, mols: seq<Mol>, env: Env, i: nat)
    requires forall i :: 0 <= i < |mols| ==> BondsReferenceAtoms(mols[i])
    requires i < |mols|
    ensures WriteAll(c, mols, env)[i] == WriteMolecule(Counter(c.written + i), mols[i], env)
  {
  }

  /** After the whole stream the counter has moved on by the number of
      molecules. */
  lemma StreamCounterAfter(c: Counter, mols: seq<Mol>, env: Env)
    requires forall i :: 0 <= i < |mols| ==> BondsReferenceAtoms(mols[i])
    requires |mols| > 0
    ensures var ws := WriteAll(c, mols, env);
      ws[|ws| - 1].next.written == c.written + |mols|
  {
  }

  /** In one run from a fresh counter, the header is written once, as the
      first declaration of the first molecule. */
  lemma HeaderOnce(mols: seq<Mol>, env: Env)
    requires forall i :: 0 <= i < |mols| ==> BondsReferenceAtoms(mols[i])
    ensures var ws := WriteAll(Counter(0), mols, env);
      forall i :: 0 <= i < |ws| ==> |ws[i].decls| > 0 && (ws[i].decls[0].Header? <==> i == 0)
  {
    var ws := WriteAll(Counter(0), mols, env);
    forall i | 0 <= i < |ws|
      ensures |ws[i].decls| > 0 && (ws[i].decls[0].Header? <==> i == 0)
    {
      WriteMoleculeHeader(Counter(0 + i), mols[i], env);
    }
  }

  /** A later output file of the same process continues the counter: none of
      its molecules gets a header, and every one of them gets a prefix with
      the counter's digits appended, the first one included. */
  lemma LaterFileHasNoHeader(c: Counter, mols: seq<Mol>, env: Env)
    requires forall i :: 0 <= i < |mols| ==> BondsReferenceAtoms(mols[i])
    requires c.written > 0
    ensures var ws := WriteAll(c, mols, env);
      forall i :: 0 <= i < |ws| ==>
        && |ws[i].decls| > 0 && !ws[i].decls[0].Header?
        && ws[i].prefix == BasePrefix(mols[i].title) + NatText(c.written + i)
  {
    var ws := WriteAll(c, mols, env);
    forall i | 0 <= i < |ws|
      ensures |ws[i].decls| > 0 && !ws[i].decls[0].Header?
      ensures ws[i].prefix == BasePrefix(mols[i].title) + NatText(c.written + i)
    {
      LaterMolecule(c, mols, env, i);
    }
  }

  /** Molecule `i` of a stream from a non-zero counter. */
  lemma LaterMolecule(c: Counter, mols: seq<Mol>, env: Env, i: nat)
    requires forall i :: 0 <= i < |mols| ==> BondsReferenceAtoms(mols[i])
    requires c.written > 0 && i < |mols|
    ensures var w := WriteAll(c, mols, env)[i];
      && |w.decls| > 0 && !w.decls[0].Header?
      && w.prefix == BasePrefix(mols[i].title) + NatText(c.written + i)
  {
    WriteAllHeaderAt(c, mols, env, i);
    WriteAllPrefixAt(c, mols, env, i);
  }

  /** Molecule `i` of a stream takes the prefix of counter value `c + i`. */
  lemma WriteAllPrefixAt(c: Counter, mols: seq<Mol>, env: Env, i: nat)
    requires forall i :: 0 <= i < |mols| ==> BondsReferenceAtoms(mols[i])
    requires i < |mols|
    ensures WriteAll(c, mols, env)[i].prefix == MoleculePrefix(mols[i].title, Counter(c.written + i))
  {
    WriteAllAt(c, mols, env, i);
  }

  /** Molecule `i` of a stream opens with a header exactly when the counter
      it is written under is zero. */
  lemma WriteAllHeaderAt(c: Counter, mols: seq<Mol>, env: Env, i: nat)
    requires forall i :: 0 <= i < |mols| ==> BondsReferenceAtoms(mols[i])
    requires i < |mols|
    ensures var w := WriteAll(c, mols, env)[i];
      |w.decls| > 0 && (w.decls[0].Header? <==> c.written + i == 0)
  {
    WriteAllAt(c, mols, env, i);
    WriteMoleculeHeader(Counter(c.written + i), mols[i], env);
  }

  /** In one stream, from whatever counter it starts, two molecules with the
      same title are written under different prefixes. */
  lemma SameTitleSeparated(c: Counter, mols: seq<Mol>, env: Env, i: nat, j: nat)
    requires forall i :: 0 <= i < |mols| ==> BondsReferenceAtoms(mols[i])
    requires i < j < |mols| && mols[i].title == mols[j].title
    ensures WriteAll(c, mols, env)[i].prefix != WriteAll(c, mols, env)[j].prefix
  {
    var a, b := Counter(c.written + i), Counter(c.written + j);
    WriteAllPrefixAt(c, mols, env, i);
    WriteAllPrefixAt(c, mols, env, j);
    SameTitleDistinctPrefixes(mols[i].title, a, b);
  }
}

=== FILE: text.dfy ===
/** Character-level text helpers shared by both formats: decimal integer text
    (`%d`), column padding, the C-string view of a buffer, the whitespace
    tokenizer and the `%d` scanner of `sscanf`. */
module Text {
  import opened Wrappers

  /** C `isspace` in the "C" locale. */
  predicate IsSpace(c: char) {
    c == ' ' || c == '\t' || c == '\n' || c == '\r' || c == '\U{000B}' || c == '\U{000C}'
  }

  predicate IsDigit(c: char) {
    '0' <= c <= '9'
  }

  predicate AllSpace(s: string) {
    forall i :: 0 <= i < |s| ==> IsSpace(s[i])
  }

  /** A token: non-empty and free of whitespace. */
  predicate IsToken(s: string) {
    |s| > 0 && forall i :: 0 <= i < |s| ==> !IsSpace(s[i])
  }

  predicate AllDigits(s: string) {
    forall i :: 0 <= i < |s| ==> IsDigit(s[i])
  }

  function DigitChar(d: nat): (c: char)
    requires d < 10
    ensures IsDigit(c)
  {
    ('0' as int + d) as char
  }

  function DigitValue(c: char): (d: nat)
    requires IsDigit(c)
    ensures d < 10
  {
    c as int - '0' as int
  }

  // ---------------------------------------------------------------------------
  // Decimal text
  // ---------------------------------------------------------------------------

  /** Decimal text of a natural number, as `%d` or `ostream << n` writes it. */
  function NatText(n: nat): (s: string)
    ensures |s| >= 1 && AllDigits(s)
    decreases n
  {
    if n < 10 then [DigitChar(n)] else NatText(n / 10) + [DigitChar(n % 10)]
  }

  /** Value of a string of decimal digits. */
  function ParseNat(s: string): nat
    requires AllDigits(s)
    decreases |s|
  {
    if |s| == 0 then 0 else ParseNat(s[..|s| - 1]) * 10 + DigitValue(s[|s| - 1])
  }

  /** Reading the decimal text of `n` gives `n` back. */
  lemma {:induction false} ParseNatText(n: nat)
    ensures ParseNat(NatText(n)) == n
    decreases n
  {
    if n >= 10 {
      var s := NatText(n);
      assert s[..|s| - 1] == NatText(n / 10);
      ParseNatText(n / 10);
    }
  }

  /** Different numbers have different decimal texts. */
  lemma NatTextInjective(a: nat, b: nat)
    requires NatText(a) == NatText(b)
    ensures a == b
  {
    ParseNatText(a);
    ParseNatText(b);
  }

  /** Decimal text of an integer, as `%d` writes it. */
  function IntText(v: int): (s: string)
    ensures IsToken(s)
    ensures s[0] == '-' || IsDigit(s[0])
  {
    if v < 0 then "-" + NatText(-v) else NatText(v)
  }

  /** The decimal text of `n` has one digit below 10, at most two below 100
      and at most three below 1000. */
  lemma {:induction false} NatTextWidth(n: nat)
    ensures n < 10 <==> |NatText(n)| == 1
    ensures n < 100 <==> |NatText(n)| <= 2
    ensures n < 1000 <==> |NatText(n)| <= 3
    decreases n
  {
    if n >= 10 {
      NatTextWidth(n / 10);
    }
  }

  /** Decimal text never holds a NUL. */
  lemma IntTextNoNul(v: int)
    ensures '\0' !in IntText(v)
  {
  }

  // ---------------------------------------------------------------------------
  // Padding (printf field widths)
  // ---------------------------------------------------------------------------

  function Spaces(k: nat): (s: string)
    ensures |s| == k && AllSpace(s)
    ensures forall i :: 0 <= i < k ==> s[i] == ' '
  {
    seq(k, _ => ' ')
  }

  /** Right-justified field of width `w` (`%<w>d`, `%<w>.4f`). */
  function PadLeft(s: string, w: nat): (r: string)
    ensures |r| == if |s| < w then w else |s|
    ensures AllSpace(r[..|r| - |s|]) && r[|r| - |s|..] == s
  {
    if |s| < w then Spaces(w - |s|) + s else s
  }

  /** The number of blanks a field of width `w` adds to `s`. */
  function PadWidth(s: string, w: nat): nat {
    if |s| < w then w - |s| else 0
  }

  /** A right-justified field is its padding followed by the text. */
  lemma PadLeftSplit(s: string, w: nat)
    ensures PadLeft(s, w) == Spaces(PadWidth(s, w)) + s
  {
    if |s| >= w {
      assert Spaces(0) + s == s;
    }
  }

  /** Left-justified field of width `w` (`%-<w>s`). */
  function PadRight(s: string, w: nat): (r: string)
    ensures |r| == if |s| < w then w else |s|
    ensures r[..|s|] == s && AllSpace(r[|s|..])
  {
    if |s| < w then s + Spaces(w - |s|) else s
  }

  // ---------------------------------------------------------------------------
  // C strings
  // ---------------------------------------------------------------------------

  /** What a `char *` view of `s` sees: the characters before the first NUL. */
  function CString(s: string): (r: string)
    ensures '\0' !in r
    ensures |r| <= |s| && r == s[..|r|]
    ensures |r| < |s| ==> s[|r|] == '\0'
  {
    if |s| == 0 || s[0] == '\0' then "" else [s[0]] + CString(s[1..])
  }

  lemma CStringOfPlain(s: string)
    requires '\0' !in s
    ensures CString(s) == s
  {
  }

  // ---------------------------------------------------------------------------
  // Whitespace tokenizer
  // ---------------------------------------------------------------------------

  /** Length of the run of non-space characters that starts `s`. */
  function TokenLength(s: string): (n: nat)
    ensures n <= |s|
    ensures forall i :: 0 <= i < n ==> !IsSpace(s[i])
    ensures n == |s| || IsSpace(s[n])
  {
    if |s| == 0 || IsSpace(s[0]) then 0 else 1 + TokenLength(s[1..])
  }

  /** Splits `s` at runs of whitespace, dropping empty pieces. */
  function Tokenize(s: string): (ts: seq<string>)
    ensures forall i :: 0 <= i < |ts| ==> IsToken(ts[i])
    decreases |s|
  {
    if |s| == 0 then []
    else if IsSpace(s[0]) then Tokenize(s[1..])
    else
      var n := TokenLength(s);
      [s[..n]] + Tokenize(s[n..])
  }

  /** Leading whitespace does not change the tokens. */
  lemma {:induction false} TokenizeAfterSpace(w: string, s: string)
    requires AllSpace(w)
    ensures Tokenize(w + s) == Tokenize(s)
    decreases |w|
  {
    if |w| > 0 {
      assert (w + s)[0] == w[0] && IsSpace(w[0]);
      assert (w + s)[1..] == w[1..] + s;
      TokenizeAfterSpace(w[1..], s);
    } else {
      assert w + s == s;
    }
  }

  lemma {:induction false} TokenLengthOfToken(t: string, s: string)
    requires IsToken(t)
    requires |s| == 0 || IsSpace(s[0])
    ensures TokenLength(t + s) == |t|
    decreases |t|
  {
    assert (t + s)[1..] == t[1..] + s;
    if |t| > 1 {
      TokenLengthOfToken(t[1..], s);
    }
  }

  /** A token followed by whitespace (or nothing) is read off as one piece. */
  lemma TokenizeToken(t: string, s: string)
    requires IsToken(t)
    requires |s| == 0 || IsSpace(s[0])
    ensures Tokenize(t + s) == [t] + Tokenize(s)
  {
    TokenLengthOfToken(t, s);
    assert (t + s)[..|t|] == t;
    assert (t + s)[|t|..] == s;
  }

  lemma {:induction false} TokenizeAllSpace(w: string)
    requires AllSpace(w)
    ensures Tokenize(w) == []
  {
    TokenizeAfterSpace(w, "");
    assert w + "" == w;
  }

  /** Tokens joined by non-empty whitespace runs split back into themselves. */
  lemma TokenizeJoined(w: string, t: string, rest: string)
    requires AllSpace(w) && IsToken(t)
    requires |rest| == 0 || IsSpace(rest[0])
    ensures Tokenize(w + t + rest) == [t] + Tokenize(rest)
  {
    assert w + t + rest == w + (t + rest);
    TokenizeAfterSpace(w, t + rest);
    TokenizeToken(t, rest);
  }

  /** Tokens, each after its whitespace run. */
  function Interleave(ws: seq<string>, ts: seq<string>): string
    requires |ws| == |ts|
    decreases |ts|
  {
    if |ts| == 0 then "" else ws[0] + ts[0] + Interleave(ws[1..], ts[1..])
  }

  /** Tokens interleaved with whitespace runs, non-empty between two tokens,
      split back into themselves. */
  lemma {:induction false} TokenizeInterleave(ws: seq<string>, ts: seq<string>)
    requires |ws| == |ts|
    requires forall i :: 0 <= i < |ws| ==> AllSpace(ws[i]) && IsToken(ts[i])
    requires forall i :: 0 < i < |ws| ==> |ws[i]| > 0
    ensures Tokenize(Interleave(ws, ts)) == ts
    decreases |ts|
  {
    if |ts| == 0 {
      assert Tokenize("") == [];
    } else {
      var rest := Interleave(ws[1..], ts[1..]);
      TokenizeInterleave(ws[1..], ts[1..]);
      if |ts| > 1 {
        assert rest[0] == ws[1][0];
      }
      TokenizeJoined(ws[0], ts[0], rest);
      assert ts == [ts[0]] + ts[1..];
    }
  }

  lemma Interleave4(w1: string, t1: string, w2: string, t2: string, w3: string, t3: string, w4: string, t4: string)
    ensures Interleave([w1, w2, w3, w4], [t1, t2, t3, t4]) == w1 + t1 + (w2 + t2 + (w3 + t3 + (w4 + t4 + "")))
  {
    assert [w1, w2, w3, w4][1..] == [w2, w3, w4];
    assert [t1, t2, t3, t4][1..] == [t2, t3, t4];
    assert [w2, w3, w4][1..] == [w3, w4];
    assert [t2, t3, t4][1..] == [t3, t4];
    assert [w3, w4][1..] == [w4];
    assert [t3, t4][1..] == [t4];
    assert [w4][1..] == [] && [t4][1..] == [];
    assert Interleave([w4], [t4]) == w4 + t4 + "";
    assert Interleave([w3, w4], [t3, t4]) == w3 + t3 + (w4 + t4 + "");
    assert Interleave([w2, w3, w4], [t2, t3, t4]) == w2 + t2 + (w3 + t3 + (w4 + t4 + ""));
  }

  /** Four (gap, token) pairs laid end to end are their interleaving. */
  lemma Interleave4Flat(w1: string, t1: string, w2: string, t2: string, w3: string, t3: string, w4: string, t4: string)
    ensures Interleave([w1, w2, w3, w4], [t1, t2, t3, t4]) == (w1 + t1) + (w2 + t2) + (w3 + t3) + (w4 + t4)
  {
    Interleave4(w1, t1, w2, t2, w3, t3, w4, t4);
    assert w4 + t4 + "" == w4 + t4;
  }

  /** Four tokens, each after its own blanks and the last three after at
      least one, split back into the four tokens. */
  lemma TokenizeFour(w1: string, t1: string, w2: string, t2: string, w3: string, t3: string, w4: string, t4: string)
    requires AllSpace(w1) && AllSpace(w2) && AllSpace(w3) && AllSpace(w4)
    requires IsToken(t1) && IsToken(t2) && IsToken(t3) && IsToken(t4)
    requires |w2| > 0 && |w3| > 0 && |w4| > 0
    ensures Tokenize((w1 + t1) + (w2 + t2) + (w3 + t3) + (w4 + t4)) == [t1, t2, t3, t4]
  {
    var ws := [w1, w2, w3, w4];
    var ts := [t1, t2, t3, t4];
    Interleave4Flat(w1, t1, w2, t2, w3, t3, w4, t4);
    assert forall i :: 0 <= i < |ws| ==> AllSpace(ws[i]) && IsToken(ts[i]);
    TokenizeInterleave(ws, ts);
  }

  lemma Interleave3(w1: string, t1: string, w2: string, t2: string, w3: string, t3: string)
    ensures Interleave([w1, w2, w3], [t1, t2, t3]) == (w1 + t1) + (w2 + t2) + (w3 + t3)
  {
    assert [w1, w2, w3][1..] == [w2, w3];
    assert [t1, t2, t3][1..] == [t2, t3];
    assert [w2, w3][1..] == [w3];
    assert [t2, t3][1..] == [t3];
    assert [w3][1..] == [] && [t3][1..] == [];
    assert Interleave([w3], [t3]) == w3 + t3 + "";
    assert Interleave([w2, w3], [t2, t3]) == w2 + t2 + (w3 + t3 + "");
    assert w3 + t3 + "" == w3 + t3;
  }

  lemma AllSpaceJoin(a: string, b: string)
    requires AllSpace(a) && AllSpace(b)
    ensures AllSpace(a + b)
  {
    assert forall i :: 0 <= i < |a + b| ==> (a + b)[i] == if i < |a| then a[i] else b[i - |a|];
  }

  /** Two tokens with nothing between them are one token. */
  lemma TokenJoin(a: string, b: string)
    requires IsToken(a) && IsToken(b)
    ensures IsToken(a + b)
  {
    assert forall i :: 0 <= i < |a + b| ==> (a + b)[i] == if i < |a| then a[i] else b[i - |a|];
  }

  /** Three tokens, each after its own blanks and the last two after at
      least one, split back into the three tokens. */
  lemma TokenizeThree(w1: string, t1: string, w2: string, t2: string, w3: string, t3: string)
    requires AllSpace(w1) && AllSpace(w2) && AllSpace(w3)
    requires IsToken(t1) && IsToken(t2) && IsToken(t3)
    requires |w2| > 0 && |w3| > 0
    ensures Tokenize((w1 + t1) + (w2 + t2) + (w3 + t3)) == [t1, t2, t3]
  {
    var ws := [w1, w2, w3];
    var ts := [t1, t2, t3];
    Interleave3(w1, t1, w2, t2, w3, t3);
    assert forall i :: 0 <= i < |ws| ==> AllSpace(ws[i]) && IsToken(ts[i]);
    TokenizeInterleave(ws, ts);
  }

  // ---------------------------------------------------------------------------
  // The %d conversion of sscanf
  // ---------------------------------------------------------------------------

  /** `s` without its leading whitespace. */
  function SkipSpace(s: string): (r: string)
    ensures |r| <= |s|
  {
    if |s| > 0 && IsSpace(s[0]) then SkipSpace(s[1..]) else s
  }

  /** Length of the run of digits that starts `s`. */
  function DigitRun(s: string): (n: nat)
    ensures n <= |s| && AllDigits(s[..n])
  {
    if |s| > 0 && IsDigit(s[0]) then 1 + DigitRun(s[1..]) else 0
  }

  /** One `%d` conversion: skips whitespace, reads an optional sign and at
      least one digit; yields the value and the unread rest, or None when the
      conversion fails. */
  function ScanInt(s: string): (r: Option<(int, string)>)
    ensures r.Some? ==> |r.value.1| < |s|
  {
    var t := SkipSpace(s);
    var signed := |t| > 0 && (t[0] == '-' || t[0] == '+');
    var u := if signed then t[1..] else t;
    var n := DigitRun(u);
    if n == 0 then None
    else
      var magnitude: int := ParseNat(u[..n]);
      Some((if signed && t[0] == '-' then -magnitude else magnitude, u[n..]))
  }

  lemma {:induction false} DigitRunOfDigits(d: string, rest: string)
    requires AllDigits(d)
    requires |rest| == 0 || !IsDigit(rest[0])
    ensures DigitRun(d + rest) == |d|
    decreases |d|
  {
    if |d| > 0 {
      assert (d + rest)[0] == d[0];
      assert (d + rest)[1..] == d[1..] + rest;
      DigitRunOfDigits(d[1..], rest);
    } else {
      assert d + rest == rest;
    }
  }

  lemma SkipSpaceBefore(w: string, t: string)
    requires AllSpace(w)
    requires |t| == 0 || !IsSpace(t[0])
    ensures SkipSpace(w + t) == t
    decreases |w|
  {
    if |w| > 0 {
      assert (w + t)[1..] == w[1..] + t;
      SkipSpaceBefore(w[1..], t);
    }
  }

  /** `%d` on digits `d` followed by a non-digit reads their value. */
  lemma {:induction false} ScanIntOfDigits(d: string, rest: string)
    requires |d| > 0 && AllDigits(d)
    requires |rest| == 0 || !IsDigit(rest[0])
    ensures ScanInt(d + rest) == Some((ParseNat(d) as int, rest))
  {
    var u := d + rest;
    DigitRunOfDigits(d, rest);
    assert u[..|d|] == d;
    assert u[|d|..] == rest;
    assert SkipSpace(u) == u;
  }

  /** `%d` on a minus sign, digits `d` and a non-digit reads the negated
      value. */
  lemma {:induction false} ScanIntOfNegDigits(d: string, rest: string)
    requires |d| > 0 && AllDigits(d)
    requires |rest| == 0 || !IsDigit(rest[0])
    ensures ScanInt("-" + d + rest) == Some((-(ParseNat(d) as int), rest))
  {
    var u := d + rest;
    var t := "-" + u;
    DigitRunOfDigits(d, rest);
    assert "-" + d + rest == t;
    assert u[..|d|] == d;
    assert u[|d|..] == rest;
    assert SkipSpace(t) == t;
    assert t[1..] == u;
  }

  /** The digits after an optional sign: `%d` on the text of `v` followed by
      a non-digit reads `v`. */
  lemma {:induction false} ScanIntOfText(v: int, rest: string)
    requires |rest| == 0 || !IsDigit(rest[0])
    ensures ScanInt(IntText(v) + rest) == Some((v, rest))
  {
    if v < 0 {
      ScanIntOfNegText(-v, rest);
      assert IntText(v) == "-" + NatText(-v);
    } else {
      var d := NatText(v);
      ParseNatText(v);
      ScanIntOfDigits(d, rest);
    }
  }

  /** `%d` on the text of a negative value followed by a non-digit. */
  lemma ScanIntOfNegText(n: nat, rest: string)
    requires n > 0
    requires |rest| == 0 || !IsDigit(rest[0])
    ensures ScanInt("-" + NatText(n) + rest) == Some((-(n as int), rest))
  {
    ParseNatText(n);
    ScanIntOfNegDigits(NatText(n), rest);
  }

  /** `%d` reads back what `%d` wrote, when whitespace precedes the text and a
      non-digit (or the end) follows it. */
  lemma ScanIntText(w: string, v: int, rest: string)
    requires AllSpace(w)
    requires |rest| == 0 || !IsDigit(rest[0])
    ensures ScanInt(w + IntText(v) + rest) == Some((v, rest))
  {
    var t := IntText(v) + rest;
    assert w + IntText(v) + rest == w + t;
    ScanIntAfterSpace(w, t);
    ScanIntOfText(v, rest);
  }

  /** `%d` skips leading whitespace: reading after it is reading without it. */
  lemma ScanIntAfterSpace(w: string, t: string)
    requires AllSpace(w)
    requires |t| > 0 && !IsSpace(t[0])
    ensures ScanInt(w + t) == ScanInt(t)
  {
    SkipSpaceBefore(w, t);
    assert SkipSpace(t) == t;
  }
}

=== FILE: wrappers.dfy ===
/** Optional values, for what may be absent: a null title, a failed read. */
module Wrappers {

  datatype Option<+T> = None | Some(value: T) {

    /** The carried value, or `default` when there is none. */
    function GetOr(default: T): T {
      match this
      case Some(v) => v
      case None => default
    }
  }
}
